=== FILE: README.md ===
# math-puzzle game engine, modelled in Dafny

The game is a single-player tile-merging puzzle on a 5×5 board. Each cell
is empty, holds a numbered tile or holds a blocker. The player selects a
tile and then clicks a neighbour. If the two values are equal, or add up to
10, the tiles merge: the sum lands on the clicked cell and the selected cell
empties. The tiles then fall down their columns, and every empty cell
receives a fresh tile with a value from 2 to 7. When the score before the
merge is 800 or more, a fresh tile may instead be a blocker. A countdown
clock runs during play: a merge adds two seconds (one when the score before
the merge is over 1000), and a wrong second click costs three. A game ends at the first clock tick that finds one second or less left. A wrong click can bring the clock to zero, and play then continues until that tick. Three
shuffles per game re-roll the values of all ordinary tiles. After five idle
seconds the first move a row-major scan finds is shown as a hint. A
finished game with a positive score is added to the history, which keeps the
ten best records.

The model is a set of pure functions on an immutable board,
`seq<seq<Option<Tile>>>`. Every random draw is an explicit input:

- a grid of `Roll`s, one per cell, for refills and shuffles;
- an `Opening` for the start board.

Modules:

- `Board`: the numeric constants, tiles, cells, positions and grids.
- `Rules`: move legality.
- `Hints`: the hint scan, written as a method with nested loops.
- `Gravity`: the bottom-up swap walk, proved equal to a reference definition of a settled column.
- `Refill`: gravity followed by refill.
- `Opening`: the start board.
- `Session`: clicks, shuffles, clock ticks, game start and the session invariant.
- `History`: the top-10 score history.

Two details of the click handler shape the model:

- **A click on a blocker keeps the selection.** The handler returns before the selection is touched (`App.tsx:257-262`). The board never reports such a click, because blockers are drawn without a click handler (`components/Block.tsx:18-24`), so this branch is defensive.
- **The selected tile is not checked for being a blocker.** The second-click test looks only at presence, adjacency and values (`App.tsx:275-281`). A blocker can never become selected, because the first click on one returns early, so on every reachable session the test gives the same answer as one that also rejects a selected blocker. `Session.Valid` records this, and `Session.ClickMatchesIsLegal` proves the agreement.

## Model

| member | source | states |
|---|---|---|
| Board.NewValueRange | constants.ts:39 | a fresh tile's value lies between 2 and 7 |
| Rules.IsLegalMove | App.tsx:272-281 | a legal move joins two tiles that are not blockers, sit one step apart, and have equal values or values summing to 10; such a move always joins two distinct cells of the board sharing a row or a column |
| Rules.LegalMoveSymmetric | App.tsx:272-281 | whether two cells form a legal move does not depend on which of them is clicked first |
| Rules.LegalMoveIrreflexive | App.tsx:272 | a cell never forms a legal move with itself, so clicking the selected tile again is never a merge |
| Rules.LegalMoveNeighbours | App.tsx:272 | a legal move joins two cells one step apart in the same row or the same column; diagonal cells never qualify |
| Hints.ScanCoversLegalMoves | App.tsx:36-51 | a legal move is a right or down neighbour pair in exactly one of its two orientations, so looking right and down from every cell meets every legal move exactly once |
| Hints.NeighbourTest | App.tsx:40-51 | the scan's test (non-blocker tile, neighbour on the board, non-blocker neighbour, values pairing) holds exactly when the pair is a legal move to the right or down |
| Hints.VisitNeighbour | App.tsx:42-54 | looking from a tile to its right or lower neighbour reports the pair exactly when it is a legal move, so the report stays complete up to that pair in scan order |
| Hints.ScanCell | App.tsx:40-56 | visiting one cell reports exactly the legal moves from it to its right and lower neighbours, right first |
| Hints.ScanComplete | App.tsx:34-60 | once every cell is visited, every legal right/down move has been reported, and the report is empty exactly when no legal move exists |
| Hints.FindPossibleMoves | App.tsx:34-60 | every reported move is legal and goes right or down; the moves come in scan order without repeats; every such move is reported; the list is empty iff the board has no legal move |
| Hints.Hint | App.tsx:121-126 | the hint is empty exactly when there is no legal move; otherwise it is the two cells of the first move of the scan order |
| Gravity.CompactedShape | App.tsx:221-229 | a settled column has its original length, the same multiset of cells and the same tiles in the same order, with all empty cells above all tiles |
| Gravity.PresentMultiset | App.tsx:221-229 | gravity's swaps neither create nor destroy a cell: a column is exactly its tiles plus as many empty cells as it has gaps |
| Gravity.Swap | App.tsx:225 | the swap exchanges two cells of one column and leaves every other column alone |
| Gravity.ColumnPass | App.tsx:222-228 | the walk over one column leaves every other column untouched |
| Gravity.ColumnPassFrom | App.tsx:222-228 | started anywhere its invariant holds, the swap walk ends with the column compacted |
| Gravity.ColumnPassCompacts | App.tsx:222-228 | the full bottom-up walk over a column yields the compacted column: empty cells on top, tiles below in their old order |
| Gravity.GravityFrom | App.tsx:221 | the outer loop passes the columns one after the other and leaves every column before its starting column untouched |
| Gravity.GravityFromCompacts | App.tsx:221-229 | the per-column walks taken one after the other compact every column they pass |
| Gravity.ApplyGravity | App.tsx:221-229 | after gravity every column is the compacted form of the same column before |
| Refill.NewTile | App.tsx:234-240 | a fresh tile is a value from 2 to 7, or a blocker; it is a blocker exactly when the score is at least 800 and the blocker draw came up |
| Refill.Fill | App.tsx:232-243 | after the refill no cell is empty, every tile already present is kept, and every filled cell holds a tile the refill may create |
| Refill.SettledColumn | App.tsx:219-245 | in one column, once gravity has compacted it and the refill has kept its tiles, the old tiles sit at the bottom in their old order and the cells above were empty after gravity |
| Refill.DropAndFill | App.tsx:219-245 | the settled board is full; in every column the old tiles sit at the bottom in their old order, and every cell above them is a fresh tile |
| Refill.CompactedIdempotent | App.tsx:221-229 | gravity applied to a settled column changes nothing |
| Refill.DropAndFillFullBoard | App.tsx:219-245 | settling a board without empty cells returns it unchanged, whatever the score and the draws |
| Refill.NoBlockersBelowThreshold | App.tsx:235 | below a score of 800 a board without blockers settles into a board without blockers |
| Refill.SettledTileOrigin | App.tsx:219-245 | every tile of the settled board was in the same column before or is a tile the refill may create |
| Opening.EmptyCellsExact | App.tsx:143-147 | the empty-cell list holds exactly the empty cells, each once; these are the cells the random search can end on |
| Opening.EmptyCellsAfterSet | App.tsx:148 | putting a tile on an empty cell leaves one empty cell fewer |
| Opening.Place | App.tsx:142-150 | placing a tile keeps every tile on the board and adds a fresh value tile on an empty cell |
| Opening.PlaceCount | App.tsx:142-150 | each placement fills exactly one empty cell |
| Opening.Seed | App.tsx:140-150 | the filling loop keeps every tile placed before it and adds only fresh value tiles |
| Opening.SeedCount | App.tsx:140-150 | the filling loop fills as many empty cells as it makes placements |
| Opening.PairBoard | App.tsx:130-138 | the starting pair is two tiles of the same fresh value, one directly above the other, on an otherwise empty board, leaving 23 empty cells |
| Opening.StartBoard | App.tsx:130-150 | the start board holds exactly 10 tiles, all fresh value tiles with no blocker, and the two stacked starting tiles hold the same fresh value, so they form a legal move and a move always exists |
| Session.Initial | App.tsx:64-70 | before the first game the board is empty, the score zero, the clock at 23 seconds, three shuffles left, nothing selected, the stored high score kept, on the start menu |
| Session.MergeBonus | App.tsx:293 | a merge adds two seconds, and one second exactly when the score before the merge exceeds 1000 |
| Session.ClickMatches | App.tsx:271-281 | the second-click test requires both cells to hold tiles and be distinct, and on two mergeable cells it holds exactly when they form a legal move |
| Session.MergeBoard | App.tsx:285-288 | before settling, the clicked cell holds a tile worth the sum of the two values, the selected cell is empty, and nothing else changes |
| Session.MergeStep | App.tsx:283-295 | a merge scores the sum of the two values, makes the high score the larger of the old high score and the new score, adds the bonus for the score before the merge, leaves a full settled board and clears the selection, keeping shuffles and game state |
| Session.Click | App.tsx:251-310 | outside play or on an empty cell nothing changes; a blocker only flashes; a first click selects; a matching second click merges (score plus the sum, clock plus the bonus for the old score, board settled with the old score, selection cleared); any other second click costs three seconds, never below zero, and clears the selection |
| Session.ClickMatchesIsLegal | App.tsx:271-281 | in a valid session the game's second-click test is exactly move legality |
| Session.ClickMergesIffLegal | App.tsx:251-310 | a click merges if and only if play is on, a tile is selected, and the selected and clicked cells form a legal move |
| Session.ReclickIsPenalised | App.tsx:272-308 | clicking the selected tile again costs the penalty and clears the selection, leaving board and score alone |
| Session.PenaltyKeepsPlaying | App.tsx:301-308 | a rejected second click with at most three seconds left brings the clock to zero but leaves the game in play, since only the interval tick ends it |
| Session.MergeAtZeroKeepsPlaying | App.tsx:283-299 | a merge made with the clock at zero, before the next tick, adds the bonus seconds and the game goes on |
| Session.SettlePreservesWellFormed | App.tsx:219-245 | settling keeps every tile a blocker with value -1 or a value of at least 2 |
| Session.MergePreservesWellFormed | App.tsx:285-288 | merging two well-formed value tiles leaves a well-formed board |
| Session.ClickPreservesValid | App.tsx:251-310 | clicks keep the session invariant: a well-formed board, score within the high score, clock and shuffles in range, and a selection that holds a mergeable tile |
| Session.MergeKeepsBlockers | App.tsx:285-288 | a merge neither removes nor adds a blocker in any column |
| Session.SettleKeepsBlockers | App.tsx:219-245 | settling never removes a blocker from a column |
| Session.ClickKeepsBlockers | App.tsx:251-310 | no click ever removes a blocker: every column holds at least as many blockers after a click as before |
| Session.Reshuffle | App.tsx:318-325 | the reshuffled board keeps empty cells and blockers where they were and gives every other tile a fresh value |
| Session.Shuffle | App.tsx:312-331 | a shuffle only works during play with shuffles left; it spends one, clears the selection, keeps the empty cells and blockers and re-rolls every other value within 2 to 7; otherwise nothing changes |
| Session.SameEmptyCells | App.tsx:318-325 | boards with the same empty cells list the same empty cells |
| Session.ShufflePreservesValid | App.tsx:312-331 | shuffles keep the session invariant |
| Session.Tick | App.tsx:164-184 | the clock only runs during play; a tick lowers it by one, never below zero, and ends the game exactly when it reaches zero; nothing else changes |
| Session.GameLastsTimerTicks | App.tsx:166-177 | a game with t seconds on the clock is still on after t-1 ticks and over, at zero, after t |
| Session.TickPreservesValid | App.tsx:167-176 | ticks keep the session invariant |
| Session.Start | App.tsx:130-157 | a new game is on, with score zero, 23 seconds, 3 shuffles, no selection, the high score kept, a board of exactly 10 fresh value tiles with the stacked equal starting pair, and a legal move available |
| Session.StartPreservesValid | App.tsx:152-157 | a started game satisfies the session invariant |
| History.CountAtLeastPrefix | App.tsx:199 | in a history sorted by descending score, the records reaching a score form a prefix |
| History.Insert | App.tsx:198-199 | inserting into a sorted history puts the new record behind every record that scores at least as much |
| History.InsertSorted | App.tsx:199 | insertion keeps the history sorted |
| History.InsertKeepsPrefix | App.tsx:199 | the records that score at least as much as the inserted one keep their places |
| History.InsertMultiset | App.tsx:198 | insertion keeps every record and adds the new one |
| History.InsertStable | App.tsx:199 | insertion appends the new record to those of equal score and keeps every score's records in order |
| History.SortDesc | App.tsx:198-199 | sorting yields the same records, highest score first |
| History.SortDescStable | App.tsx:199 | the sort is stable: the records of each score keep their relative order |
| History.SortDescCount | App.tsx:199 | sorting does not change how many records reach a score |
| History.SortDescOfSorted | App.tsx:197-200 | sorting a sorted history changes nothing |
| History.TopRecords | App.tsx:200 | the first n records of a sorted list are sorted, and none dropped after them scores more than one kept |
| History.RecordScore | App.tsx:197-200 | after a record is added the history is sorted, holds min(10, old length + 1) records drawn from the old ones and the new one, and no dropped record outscores a kept one |
| History.SortWithNew | App.tsx:198-199 | sorting the old records with the new one is inserting the new one into the sorted old records |
| History.NewRecordKept | App.tsx:197-200 | a new score is kept when fewer than 10 stored records reach it, right behind them |
| History.NewRecordDropped | App.tsx:197-200 | when 10 stored records reach the new score, the history becomes the best 10 stored records |
| History.NewRecordRank | App.tsx:197-200 | the new record is kept exactly when fewer than 10 stored records score at least as much |
| History.SaveOnGameOver | App.tsx:194-206 | only a game that is over with a positive score adds a record; the history is then sorted, one longer up to 10, drawn from the old records and the new one with no dropped record outscoring a kept one, and holds the new record whenever fewer than 10 stored records reach its score |

## Left out

- Rendering, React state hooks, effect ordering and timers are left out. The one-second tick is `Session.Tick`, called once per second. The five-second hint delay (`HINT_TIMEOUT`) and the 500 ms error flash are not modelled; the hint is `Hints.Hint`, applied to the current board.
- Sounds, background music and merge animations are left out. They are output only. A click's visible effect is reduced to its `Signal`.
- Theme handling and `localStorage` are left out, and so is JSON parsing. The stored high score enters as a parameter of `Session.Initial`. The stored history is any sequence of records.
- Tile identifiers are random strings that only serve the user interface. Tiles carry no identifier here.
- Random draws are left out. Every draw becomes an input: a grid of `Roll`s for refill and shuffle, and an `Opening` for the start board. The model states which outcomes are possible, never how likely they are; in particular the 10% blocker chance is not modelled. Refill and shuffle consult one roll per cell instead of drawing from a single stream, which gives the same set of possible outcomes.
- Opening.Place: the game draws random cells until it finds an empty one, a search whose termination rests on the draws. The model instead picks the empty cell of a given rank, which gives the same set of possible start boards.
- History.SortDesc: the game uses the language's built-in sort with a score-difference comparator. That sort is stable, and the model gives it as a stable insertion sort. Its result is therefore the same, but the algorithm differs.
- History.SaveOnGameOver: in the game the save runs whenever the state or the score changes. The model applies it once, at the end of a game, and takes the date string as a parameter.
- The high-score update runs as a separate reaction to score changes. The model folds it into the merge branch of `Session.Click`, the only place the score grows.
- Session.Click: requires the clicked cell to be on the board. The board component only reports clicks on its own cells, and only on cells holding a non-blocker tile: empty cells and blockers are drawn without a click handler (`components/Block.tsx:14-25`). The model still covers the handler's empty-cell and blocker branches (`App.tsx:255-262`), but the user interface cannot reach them, so the error flash on a blocker is not reachable behaviour.
- JavaScript numbers are unbounded integers here. Scores and tile values stay far below the range where floating point would round.
- The start menu, the game-over dialog and the other presentation components are not part of this model, and neither is the audio module.

=== FILE: board.dfy ===
/** The board of the puzzle: a fixed square grid of optional tiles, together
    with the game's numeric constants. Mirrors the block, board and position
    types of the game and the constants it is played with. */
module Board {

  /** Side length of the square board. */
  const GridSize: int := 5
  /** Seconds on the clock when a game starts. */
  const InitialTime: int := 23
  /** Seconds added by a successful merge (one less once the score is high). */
  const TimeBonus: int := 2
  /** Seconds taken away by a rejected second click. */
  const TimePenalty: int := 3
  /** Number of tiles on the board when a game starts. */
  const InitialBlocks: int := 10
  /** Number of shuffles a game starts with. */
  const InitialShuffles: int := 3
  /** Values a freshly created tile can take. */
  const NewValues: seq<int> := [2, 3, 4, 5, 6, 7]
  /** Two tiles may merge when their values are equal or add up to this. */
  const TargetSum: int := 10
  /** From this score on, a refilled cell may become a blocker. */
  const BlockerScore: int := 800
  /** Above this score a merge earns one second less. */
  const BonusDropScore: int := 1000

  datatype Option<+T> = None | Some(value: T)

  /** A tile. Its identifier only serves the user interface and is not modelled. */
  datatype Tile = Tile(value: int, isBlocker: bool)

  /** Blockers carry the sentinel value -1 and can never be merged. */
  const Blocker: Tile := Tile(-1, true)

  type Cell = Option<Tile>

  /** Rows of cells, indexed `b[row][col]`, row 0 at the top. */
  type Board = seq<seq<Cell>>

  datatype Pos = Pos(row: int, col: int)

  /** An index into `NewValues`, i.e. the result of picking one of its entries. */
  type ValueIndex = i: int | 0 <= i < |NewValues|

  /** A `GridSize` x `GridSize` grid. */
  predicate IsGrid<T>(g: seq<seq<T>>) {
    |g| == GridSize && forall r :: 0 <= r < |g| ==> |g[r]| == GridSize
  }

  predicate IsBoard(b: Board) {
    IsGrid(b)
  }

  predicate InBounds(p: Pos) {
    0 <= p.row < GridSize && 0 <= p.col < GridSize
  }

  function At(b: Board, p: Pos): Cell
    requires IsBoard(b) && InBounds(p)
  {
    b[p.row][p.col]
  }

  /** A cell that holds a tile which may take part in a merge. */
  predicate Mergeable(c: Cell) {
    c.Some? && !c.value.isBlocker
  }

  /** A freshly created value tile. */
  predicate IsNewValueTile(t: Tile) {
    !t.isBlocker && t.value in NewValues
  }

  /** Fresh values lie between 2 and 7. */
  lemma NewValueRange(t: Tile)
    requires IsNewValueTile(t)
    ensures 2 <= t.value <= 7
  {
  }

  /** Writes `x` into cell `p`; every other cell keeps its content. */
  function Set(b: Board, p: Pos, x: Cell): (b': Board)
    requires IsBoard(b) && InBounds(p)
    ensures IsBoard(b')
    ensures At(b', p) == x
    ensures forall r, c :: 0 <= r < GridSize && 0 <= c < GridSize && (r != p.row || c != p.col) ==>
      b'[r][c] == b[r][c]
  {
    b[p.row := b[p.row][p.col := x]]
  }

  /** Column `c` read from top to bottom. */
  function Column(b: Board, c: int): (col: seq<Cell>)
    requires IsBoard(b) && 0 <= c < GridSize
    ensures |col| == GridSize
    ensures forall r :: 0 <= r < GridSize ==> col[r] == b[r][c]
  {
    seq(GridSize, r requires 0 <= r < GridSize => b[r][c])
  }

  /** Boards that agree column by column are equal. */
  lemma SameColumns(a: Board, b: Board)
    requires IsBoard(a) && IsBoard(b)
    requires forall c :: 0 <= c < GridSize ==> Column(a, c) == Column(b, c)
    ensures a == b
  {
    forall r | 0 <= r < GridSize
      ensures a[r] == b[r]
    {
      forall c | 0 <= c < GridSize
        ensures a[r][c] == b[r][c]
      {
        assert Column(a, c)[r] == Column(b, c)[r];
      }
    }
  }

  /** The board with no tile at all. */
  function EmptyBoard(): (b: Board)
    ensures IsBoard(b)
    ensures forall r, c :: 0 <= r < GridSize && 0 <= c < GridSize ==> b[r][c].None?
  {
    seq(GridSize, r => seq(GridSize, c => None))
  }

  /** No cell is empty. */
  predicate IsFull(b: Board)
    requires IsBoard(b)
  {
    forall r, c :: 0 <= r < GridSize && 0 <= c < GridSize ==> b[r][c].Some?
  }
}

=== FILE: gravity.dfy ===
/** Gravity: tiles fall to the bottom of their column.

    The game walks each column from the bottom row up, keeping `emptyRow`,
    the lowest row not yet holding a fallen tile, and swaps every tile it
    meets into that row. `ColumnPass` is that walk written as recursion on
    the board itself; `Compacted` is the independent definition of its
    result, and `ColumnPassCompacts` connects the two. */
module Gravity {
  import opened Board

  /** The tiles of a column, top to bottom, with the empty cells dropped. */
  function Present(col: seq<Cell>): (p: seq<Cell>)
    ensures |p| <= |col|
    ensures forall i :: 0 <= i < |p| ==> p[i].Some?
  {
    if |col| == 0 then []
    else (if col[0].Some? then [col[0]] else []) + Present(col[1..])
  }

  /** `n` empty cells. */
  function Empties(n: nat): (e: seq<Cell>)
    ensures |e| == n
    ensures forall i :: 0 <= i < n ==> e[i].None?
  {
    seq(n, _ => None)
  }

  /** What a column looks like once its tiles have fallen: all empty cells on
      top, then the tiles in their original top-to-bottom order. */
  function Compacted(col: seq<Cell>): seq<Cell> {
    Empties(Gap(col)) + Present(col)
  }

  /** The number of empty cells a column has on top after gravity. */
  function Gap(col: seq<Cell>): nat {
    |col| - |Present(col)|
  }

  /** Whatever `Present` returns is a tile of the column. */
  lemma {:induction false} PresentIsSubsequence(col: seq<Cell>, x: Cell)
    requires x in Present(col)
    ensures x in col && x.Some?
  {
    if |col| > 0 {
      if col[0].Some? && x == col[0] {
      } else {
        assert x in Present(col[1..]);
        PresentIsSubsequence(col[1..], x);
      }
    }
  }

  /** How the multiset of a column grows when a cell is put on top, in terms
      of any split of the rest into tiles `p` and `g` empty cells. */
  lemma MultisetCons(a: Cell, rest: seq<Cell>, p: seq<Cell>, g: nat)
    requires multiset(rest) == multiset(p) + multiset(Empties(g))
    ensures a.None? ==> multiset([a] + rest) == multiset(p) + multiset(Empties(g + 1))
    ensures a.Some? ==> multiset([a] + rest) == multiset([a] + p) + multiset(Empties(g))
  {
    assert Empties(g + 1) == Empties(g) + [None];
  }

  /** `Present` on a column with a cell put on top. */
  lemma PresentCons(a: Cell, rest: seq<Cell>)
    ensures Present([a] + rest) == (if a.Some? then [a] else []) + Present(rest)
  {
    assert ([a] + rest)[1..] == rest;
  }

  /** The split of `PresentMultiset` survives putting a cell on top. */
  lemma PresentMultisetOnTop(a: Cell, rest: seq<Cell>)
    requires multiset(rest) == multiset(Present(rest)) + multiset(Empties(Gap(rest)))
    ensures multiset([a] + rest) == multiset(Present([a] + rest)) + multiset(Empties(Gap([a] + rest)))
  {
    PresentCons(a, rest);
    MultisetCons(a, rest, Present(rest), Gap(rest));
    if a.None? {
      assert Gap([a] + rest) == Gap(rest) + 1;
    } else {
      assert Gap([a] + rest) == Gap(rest);
    }
  }

  /** A column is its tiles plus as many empty cells as it has gaps. */
  lemma {:induction false} PresentMultiset(col: seq<Cell>)
    ensures multiset(col) == multiset(Present(col)) + multiset(Empties(Gap(col)))
  {
    if |col| > 0 {
      PresentMultiset(col[1..]);
      PresentMultisetOnTop(col[0], col[1..]);
      assert col == [col[0]] + col[1..];
    }
  }

  lemma {:induction false} PresentAppend(a: seq<Cell>, b: seq<Cell>)
    ensures Present(a + b) == Present(a) + Present(b)
  {
    if |a| == 0 {
      assert a + b == b;
    } else {
      assert (a + b)[1..] == a[1..] + b;
      PresentAppend(a[1..], b);
    }
  }

  lemma PresentOfEmpties(n: nat)
    ensures Present(Empties(n)) == []
  {
    if n > 0 {
      assert Empties(n)[1..] == Empties(n - 1);
      PresentOfEmpties(n - 1);
    }
  }

  lemma {:induction false} PresentOfPresent(col: seq<Cell>)
    ensures Present(Present(col)) == Present(col)
  {
    if |col| > 0 {
      PresentOfPresent(col[1..]);
      var head := if col[0].Some? then [col[0]] else [];
      PresentAppend(head, Present(col[1..]));
      if col[0].Some? {
        assert Present(head) == head by {
          assert head[1..] == [];
        }
      }
    }
  }

  /** In a compacted column the empty cells are exactly the top `Gap` rows. */
  lemma CompactedEmptiesOnTop(col: seq<Cell>)
    ensures |Compacted(col)| == |col|
    ensures forall i :: 0 <= i < |col| ==> (Compacted(col)[i].None? <==> i < Gap(col))
  {
  }

  /** Gravity keeps the multiset of cells of a column, keeps the tiles in
      their relative order, and puts every empty cell above every tile. */
  lemma CompactedShape(col: seq<Cell>)
    ensures |Compacted(col)| == |col|
    ensures multiset(Compacted(col)) == multiset(col)
    ensures Present(Compacted(col)) == Present(col)
    ensures forall i :: 0 <= i < |col| ==> (Compacted(col)[i].None? <==> i < Gap(col))
  {
    CompactedEmptiesOnTop(col);
    PresentMultiset(col);
    PresentAppend(Empties(Gap(col)), Present(col));
    PresentOfEmpties(Gap(col));
    PresentOfPresent(col);
  }

  /** Swaps the cells of rows `r1` and `r2` in column `c`, writing row `r1`
      first as the game's destructuring swap does. */
  function Swap(b: Board, c: int, r1: int, r2: int): (b': Board)
    requires IsBoard(b) && 0 <= c < GridSize && 0 <= r1 < GridSize && 0 <= r2 < GridSize
    ensures IsBoard(b')
    ensures Column(b', c) == Column(b, c)[r1 := b[r2][c]][r2 := b[r1][c]]
    ensures forall r, k :: 0 <= r < GridSize && 0 <= k < GridSize && k != c ==> b'[r][k] == b[r][k]
  {
    var b1 := Set(b, Pos(r1, c), b[r2][c]);
    Set(b1, Pos(r2, c), b[r1][c])
  }

  /** The bottom-up swap walk over column `c`: `r` is the row being looked
      at, `emptyRow` the lowest row that has not received a falling tile. */
  function ColumnPass(b: Board, c: int, r: int, emptyRow: int): (b': Board)
    requires IsBoard(b) && 0 <= c < GridSize && -1 <= r <= emptyRow < GridSize
    ensures IsBoard(b')
    ensures forall i, k :: 0 <= i < GridSize && 0 <= k < GridSize && k != c ==> b'[i][k] == b[i][k]
    decreases r + 1
  {
    if r < 0 then b
    else if b[r][c].Some? then ColumnPass(Swap(b, c, emptyRow, r), c, r - 1, emptyRow - 1)
    else ColumnPass(b, c, r - 1, emptyRow)
  }

  /** The state of the walk part way through column `c` of a column that
      started out as `orig`: rows up to `r` are untouched, rows between `r`
      and `emptyRow` are empty, and below `emptyRow` lie, in order, the
      tiles found so far. */
  ghost predicate PassInvariant(b: Board, c: int, r: int, emptyRow: int, orig: seq<Cell>)
    requires IsBoard(b) && 0 <= c < GridSize && -1 <= r <= emptyRow < GridSize && |orig| == GridSize
  {
    var col := Column(b, c);
    && col[..r + 1] == orig[..r + 1]
    && (forall i :: r < i <= emptyRow ==> col[i].None?)
    && col[emptyRow + 1..] == Present(orig[r + 1..])
  }

  /** When the walk has passed the top row, its invariant says the column
      is compacted. */
  lemma PassDone(b: Board, c: int, emptyRow: int, orig: seq<Cell>)
    requires IsBoard(b) && 0 <= c < GridSize && -1 <= emptyRow < GridSize && |orig| == GridSize
    requires PassInvariant(b, c, -1, emptyRow, orig)
    ensures Column(b, c) == Compacted(orig)
  {
    var col := Column(b, c);
    assert orig[0..] == orig;
    assert |Present(orig)| == GridSize - (emptyRow + 1);
    assert col == col[..emptyRow + 1] + col[emptyRow + 1..];
    assert col[..emptyRow + 1] == Empties(emptyRow + 1);
  }

  /** Row `r` holds a tile: swapping it down into `emptyRow` moves the walk
      one row up with one more tile settled. */
  lemma PassSwapStep(b: Board, c: int, r: int, emptyRow: int, orig: seq<Cell>)
    requires IsBoard(b) && 0 <= c < GridSize && 0 <= r <= emptyRow < GridSize && |orig| == GridSize
    requires PassInvariant(b, c, r, emptyRow, orig) && b[r][c].Some?
    ensures PassInvariant(Swap(b, c, emptyRow, r), c, r - 1, emptyRow - 1, orig)
  {
    var col := Column(b, c);
    assert orig[r..] == [orig[r]] + orig[r + 1..];
    assert orig[r..][1..] == orig[r + 1..];
    assert col[r] == orig[r];
    var b1 := Swap(b, c, emptyRow, r);
    var col1 := Column(b1, c);
    assert col1 == col[emptyRow := col[r]][r := col[emptyRow]];
    assert forall i :: 0 <= i < r ==> col1[i] == col[i];
    assert col1[..r] == orig[..r];
    assert col1[emptyRow] == orig[r];
    assert col1[emptyRow..] == [orig[r]] + col[emptyRow + 1..];
  }

  /** Row `r` is empty: the walk moves one row up and nothing settles. */
  lemma PassSkipStep(b: Board, c: int, r: int, emptyRow: int, orig: seq<Cell>)
    requires IsBoard(b) && 0 <= c < GridSize && 0 <= r <= emptyRow < GridSize && |orig| == GridSize
    requires PassInvariant(b, c, r, emptyRow, orig) && b[r][c].None?
    ensures PassInvariant(b, c, r - 1, emptyRow, orig)
  {
    var col := Column(b, c);
    assert orig[r..] == [orig[r]] + orig[r + 1..];
    assert orig[r..][1..] == orig[r + 1..];
    assert col[r] == orig[r];
    assert col[..r] == orig[..r];
  }

  /** The swap walk, started anywhere its invariant holds, leaves the column
      compacted. */
  lemma {:induction false} ColumnPassFrom(b: Board, c: int, r: int, emptyRow: int, orig: seq<Cell>)
    requires IsBoard(b) && 0 <= c < GridSize && -1 <= r <= emptyRow < GridSize && |orig| == GridSize
    requires PassInvariant(b, c, r, emptyRow, orig)
    ensures Column(ColumnPass(b, c, r, emptyRow), c) == Compacted(orig)
    decreases r + 1
  {
    if r < 0 {
      PassDone(b, c, emptyRow, orig);
    } else if b[r][c].Some? {
      PassSwapStep(b, c, r, emptyRow, orig);
      ColumnPassFrom(Swap(b, c, emptyRow, r), c, r - 1, emptyRow - 1, orig);
    } else {
      PassSkipStep(b, c, r, emptyRow, orig);
      ColumnPassFrom(b, c, r - 1, emptyRow, orig);
    }
  }

  /** One full walk over column `c` compacts that column and leaves every
      other column as it was. */
  lemma ColumnPassCompacts(b: Board, c: int)
    requires IsBoard(b) && 0 <= c < GridSize
    ensures Column(ColumnPass(b, c, GridSize - 1, GridSize - 1), c) == Compacted(Column(b, c))
  {
    var orig := Column(b, c);
    assert orig[GridSize..] == [];
    assert orig[..GridSize] == orig;
    ColumnPassFrom(b, c, GridSize - 1, GridSize - 1, orig);
  }

  /** Gravity over columns `c` to the last, one column after the other. */
  function GravityFrom(b: Board, c: int): (b': Board)
    requires IsBoard(b) && 0 <= c <= GridSize
    ensures IsBoard(b')
    ensures forall i, k :: 0 <= i < GridSize && 0 <= k < c ==> b'[i][k] == b[i][k]
    decreases GridSize - c
  {
    if c == GridSize then b
    else GravityFrom(ColumnPass(b, c, GridSize - 1, GridSize - 1), c + 1)
  }

  lemma {:induction false} GravityFromCompacts(b: Board, c: int)
    requires IsBoard(b) && 0 <= c <= GridSize
    ensures forall k :: c <= k < GridSize ==> Column(GravityFrom(b, c), k) == Compacted(Column(b, k))
    decreases GridSize - c
  {
    if c < GridSize {
      var b1 := ColumnPass(b, c, GridSize - 1, GridSize - 1);
      ColumnPassCompacts(b, c);
      GravityFromCompacts(b1, c + 1);
      forall k | c + 1 <= k < GridSize
        ensures Column(b1, k) == Column(b, k)
      {
      }
      assert Column(GravityFrom(b1, c + 1), c) == Column(b1, c);
    }
  }

  /** Gravity over the whole board. */
  function ApplyGravity(b: Board): (b': Board)
    requires IsBoard(b)
    ensures IsBoard(b')
    ensures forall k :: 0 <= k < GridSize ==> Column(b', k) == Compacted(Column(b, k))
  {
    GravityFromCompacts(b, 0);
    GravityFrom(b, 0)
  }
}

=== FILE: hints.dfy ===
/** The hint finder: a row-major scan over the board that looks at the right
    and the lower neighbour of every non-blocker tile and reports each pair
    that could be merged. */
module Hints {
  import opened Board
  import opened Rules

  datatype Move = Move(from: Pos, to: Pos)

  function Right(p: Pos): Pos {
    Pos(p.row, p.col + 1)
  }

  function Down(p: Pos): Pos {
    Pos(p.row + 1, p.col)
  }

  /** A move of the kind the scan reports: a legal move from a cell to its
      right or to its lower neighbour. */
  predicate IsScanMove(b: Board, m: Move)
    requires IsBoard(b)
  {
    (m.to == Right(m.from) || m.to == Down(m.from)) && IsLegalMove(b, m.from, m.to)
  }

  /** Where the scan meets a move: cells in row-major order, and for each
      cell the right neighbour before the lower one. */
  function ScanKey(m: Move): int {
    2 * (m.from.row * GridSize + m.from.col) + (if m.to == Down(m.from) then 1 else 0)
  }

  /** What the scan has established once it has reached key `bound`: the
      moves found so far are scan moves met before `bound`, in scan order,
      and every scan move before `bound` has been found. */
  ghost predicate Scanned(b: Board, moves: seq<Move>, bound: int)
    requires IsBoard(b)
  {
    && (forall i :: 0 <= i < |moves| ==> IsScanMove(b, moves[i]) && ScanKey(moves[i]) < bound)
    && (forall i, j :: 0 <= i < j < |moves| ==> ScanKey(moves[i]) < ScanKey(moves[j]))
    && (forall m :: IsScanMove(b, m) && ScanKey(m) < bound ==> m in moves)
  }

  /** Keys of cells on the board are below `2 * GridSize * GridSize`, and the
      pair of keys of a cell belongs to that cell alone. */
  lemma CellOfKey(row: int, col: int, d: int, r: int, c: int)
    requires 0 <= row < GridSize && 0 <= col < GridSize && 0 <= d <= 1
    requires 0 <= r < GridSize && 0 <= c < GridSize
    ensures 0 <= 2 * (row * GridSize + col) + d < 2 * GridSize * GridSize
    ensures 2 * (r * GridSize + c) <= 2 * (row * GridSize + col) + d < 2 * (r * GridSize + c) + 2 ==>
      row == r && col == c
  {
  }

  /** A scan move lies on the board, so its key is below `2 * GridSize * GridSize`,
      and the key tells which cell it starts from. */
  lemma ScanKeyRange(b: Board, m: Move, r: int, c: int)
    requires IsBoard(b) && IsScanMove(b, m) && 0 <= r < GridSize && 0 <= c < GridSize
    ensures 0 <= ScanKey(m) < 2 * GridSize * GridSize
    ensures 2 * (r * GridSize + c) <= ScanKey(m) < 2 * (r * GridSize + c) + 2 ==> m.from == Pos(r, c)
  {
    assert InBounds(m.from);
    CellOfKey(m.from.row, m.from.col, if m.to == Down(m.from) then 1 else 0, r, c);
  }

  /** Every unordered pair of neighbours that forms a legal move is a scan
      move in exactly one of its two orientations. */
  lemma ScanCoversLegalMoves(b: Board, p: Pos, q: Pos)
    requires IsBoard(b)
    ensures IsLegalMove(b, p, q) <==> IsScanMove(b, Move(p, q)) || IsScanMove(b, Move(q, p))
    ensures !(IsScanMove(b, Move(p, q)) && IsScanMove(b, Move(q, p)))
  {
    LegalMoveSymmetric(b, p, q);
    if IsLegalMove(b, p, q) {
      LegalMoveNeighbours(b, p, q);
    }
  }

  /** Looking at one candidate move `m` advances the scan by one key,
      provided `m` is the only scan move that could carry that key. */
  lemma ScanStep(b: Board, moves: seq<Move>, m: Move)
    requires IsBoard(b) && Scanned(b, moves, ScanKey(m))
    requires forall m' :: IsScanMove(b, m') && ScanKey(m') == ScanKey(m) ==> m' == m
    ensures Scanned(b, if IsScanMove(b, m) then moves + [m] else moves, ScanKey(m) + 1)
  {
  }

  /** The only scan moves with the two keys of cell (`r`, `c`) are the moves
      from that cell to its right and to its lower neighbour. */
  lemma KeysOfCell(b: Board, r: int, c: int)
    requires IsBoard(b) && 0 <= r < GridSize && 0 <= c < GridSize
    ensures ScanKey(Move(Pos(r, c), Right(Pos(r, c)))) == 2 * (r * GridSize + c)
    ensures ScanKey(Move(Pos(r, c), Down(Pos(r, c)))) == 2 * (r * GridSize + c) + 1
    ensures forall m :: IsScanMove(b, m) && ScanKey(m) == 2 * (r * GridSize + c) ==>
      m == Move(Pos(r, c), Right(Pos(r, c)))
    ensures forall m :: IsScanMove(b, m) && ScanKey(m) == 2 * (r * GridSize + c) + 1 ==>
      m == Move(Pos(r, c), Down(Pos(r, c)))
  {
    forall m | IsScanMove(b, m) && 2 * (r * GridSize + c) <= ScanKey(m) <= 2 * (r * GridSize + c) + 1
      ensures m.from == Pos(r, c)
    {
      ScanKeyRange(b, m, r, c);
    }
  }

  /** The test the scan applies to a cell and one of its two forward
      neighbours is exactly the test for a scan move. */
  lemma NeighbourTest(b: Board, here: Pos, there: Pos)
    requires IsBoard(b) && InBounds(here) && (there == Right(here) || there == Down(here))
    ensures IsScanMove(b, Move(here, there)) <==>
      && Mergeable(At(b, here))
      && there.row < GridSize && there.col < GridSize
      && Mergeable(At(b, there))
      && Pairs(At(b, here).value.value, At(b, there).value.value)
  {
  }

  /** The two directions the scan looks in, right first, then down. */
  const Directions: seq<(int, int)> := [(0, 1), (1, 0)]

  /** The scan's look from the tile at `here` to one forward neighbour: the
      pair is reported when the neighbour is on the board, is not a blocker,
      and pairs with the tile. */
  method VisitNeighbour(b: Board, moves: seq<Move>, here: Pos, there: Pos) returns (moves': seq<Move>)
    requires IsBoard(b) && InBounds(here) && Mergeable(At(b, here))
    requires there == Right(here) || there == Down(here)
    requires Scanned(b, moves, ScanKey(Move(here, there)))
    requires forall m :: IsScanMove(b, m) && ScanKey(m) == ScanKey(Move(here, there)) ==> m == Move(here, there)
    ensures Scanned(b, moves', ScanKey(Move(here, there)) + 1)
  {
    NeighbourTest(b, here, there);
    moves' := moves;
    if there.row < GridSize && there.col < GridSize {
      var block := b[here.row][here.col];
      var neighbour := b[there.row][there.col];
      if neighbour.Some? && !neighbour.value.isBlocker && Pairs(block.value.value, neighbour.value.value) {
        moves' := moves' + [Move(here, there)];
      }
    }
    ScanStep(b, moves, Move(here, there));
  }

  /** The scan's visit of cell (`r`, `c`): for each of the two directions,
      the neighbour is reported when it pairs with the cell. */
  method ScanCell(b: Board, moves: seq<Move>, r: int, c: int) returns (moves': seq<Move>)
    requires IsBoard(b) && 0 <= r < GridSize && 0 <= c < GridSize
    requires Scanned(b, moves, 2 * (r * GridSize + c))
    ensures Scanned(b, moves', 2 * (r * GridSize + c) + 2)
  {
    var here := Pos(r, c);
    var block := b[r][c];
    KeysOfCell(b, r, c);
    moves' := moves;
    if block.Some? && !block.value.isBlocker {
      for d := 0 to |Directions|
        invariant Scanned(b, moves', 2 * (r * GridSize + c) + d)
      {
        var there := Pos(r + Directions[d].0, c + Directions[d].1);
        assert there == if d == 0 then Right(here) else Down(here);
        moves' := VisitNeighbour(b, moves', here, there);
      }
    } else {
      NeighbourTest(b, here, Right(here));
      NeighbourTest(b, here, Down(here));
    }
  }

  /** Once the scan has passed every cell it has found every scan move, and
      it has found none exactly when the board offers no legal move. */
  lemma ScanComplete(b: Board, moves: seq<Move>)
    requires IsBoard(b) && Scanned(b, moves, 2 * (GridSize * GridSize))
    ensures forall m :: IsScanMove(b, m) ==> m in moves
    ensures |moves| == 0 <==> !HasLegalMove(b)
  {
    forall m | IsScanMove(b, m)
      ensures m in moves
    {
      ScanKeyRange(b, m, 0, 0);
    }
    if |moves| == 0 {
      forall p, q
        ensures !IsLegalMove(b, p, q)
      {
        ScanCoversLegalMoves(b, p, q);
      }
    } else {
      assert IsLegalMove(b, moves[0].from, moves[0].to);
    }
  }

  /** All moves the hint finder reports, in scan order. Sound: every entry is
      a legal move to the right or lower neighbour. Complete: every such move
      is reported, so the result is empty exactly when no legal move exists.
      The strict scan order means no move is reported twice. */
  method FindPossibleMoves(b: Board) returns (moves: seq<Move>)
    requires IsBoard(b)
    ensures forall i :: 0 <= i < |moves| ==> IsScanMove(b, moves[i])
    ensures forall i, j :: 0 <= i < j < |moves| ==> ScanKey(moves[i]) < ScanKey(moves[j])
    ensures forall m :: IsScanMove(b, m) ==> m in moves
    ensures |moves| == 0 <==> !HasLegalMove(b)
  {
    moves := [];
    var r := 0;
    while r < GridSize
      invariant 0 <= r <= GridSize
      invariant Scanned(b, moves, 2 * (r * GridSize))
    {
      var c := 0;
      while c < GridSize
        invariant 0 <= c <= GridSize
        invariant Scanned(b, moves, 2 * (r * GridSize + c))
      {
        moves := ScanCell(b, moves, r, c);
        c := c + 1;
      }
      r := r + 1;
    }
    ScanComplete(b, moves);
  }

  /** The hint shown to an idle player: the two cells of the first move the
      scan finds, or nothing when there is no legal move. */
  method Hint(b: Board) returns (hinted: seq<Pos>)
    requires IsBoard(b)
    ensures |hinted| == 0 <==> !HasLegalMove(b)
    ensures |hinted| != 0 ==> |hinted| == 2 && IsScanMove(b, Move(hinted[0], hinted[1]))
    ensures |hinted| != 0 ==> forall m :: IsScanMove(b, m) ==> ScanKey(Move(hinted[0], hinted[1])) <= ScanKey(m)
  {
    var moves := FindPossibleMoves(b);
    if |moves| > 0 {
      hinted := [moves[0].from, moves[0].to];
      assert Move(hinted[0], hinted[1]) == moves[0];
    } else {
      hinted := [];
    }
  }
}

=== FILE: history.dfy ===
/** The score history: when a game ends with a positive score, the score is
    appended to the stored records, the records are sorted by score from
    highest to lowest, and only the best `MaxRecords` are kept. The sort is
    modelled as a stable one (records with equal scores keep their order),
    which is how the sort the game relies on behaves; the date string comes
    from the clock and is a parameter here. */
module History {
  import Session

  /** How many records the history keeps. */
  const MaxRecords: int := 10

  datatype ScoreRecord = ScoreRecord(score: int, date: string)

  function Min(a: int, b: int): int {
    if a < b then a else b
  }

  /** Highest score first. */
  predicate SortedDesc(h: seq<ScoreRecord>) {
    forall i, j :: 0 <= i < j < |h| ==> h[i].score >= h[j].score
  }

  /** The number of records scoring at least `v`. */
  function CountAtLeast(h: seq<ScoreRecord>, v: int): (n: nat)
    ensures n <= |h|
  {
    if |h| == 0 then 0 else (if h[0].score >= v then 1 else 0) + CountAtLeast(h[1..], v)
  }

  /** The records scoring exactly `k`, in their order in `h`. */
  function WithScore(h: seq<ScoreRecord>, k: int): seq<ScoreRecord> {
    if |h| == 0 then [] else (if h[0].score == k then [h[0]] else []) + WithScore(h[1..], k)
  }

  /** In a sorted history the records scoring at least `v` are exactly the
      first `CountAtLeast(h, v)` ones. */
  lemma {:induction false} CountAtLeastPrefix(h: seq<ScoreRecord>, v: int)
    requires SortedDesc(h)
    ensures forall i :: 0 <= i < |h| ==> (h[i].score >= v <==> i < CountAtLeast(h, v))
  {
    if |h| > 0 {
      CountAtLeastPrefix(h[1..], v);
      assert forall i :: 1 <= i < |h| ==> h[i] == h[1..][i - 1];
    }
  }

  lemma {:induction false} CountAtLeastAppend(a: seq<ScoreRecord>, b: seq<ScoreRecord>, v: int)
    ensures CountAtLeast(a + b, v) == CountAtLeast(a, v) + CountAtLeast(b, v)
    decreases |a|
  {
    if |a| > 0 {
      assert (a + b)[1..] == a[1..] + b;
      CountAtLeastAppend(a[1..], b, v);
    } else {
      assert a + b == b;
    }
  }

  lemma {:induction false} WithScoreAppend(a: seq<ScoreRecord>, b: seq<ScoreRecord>, k: int)
    ensures WithScore(a + b, k) == WithScore(a, k) + WithScore(b, k)
    decreases |a|
  {
    if |a| > 0 {
      assert (a + b)[1..] == a[1..] + b;
      WithScoreAppend(a[1..], b, k);
    } else {
      assert a + b == b;
    }
  }

  /** No record of `h` scores `k`. */
  lemma {:induction false} WithScoreNone(h: seq<ScoreRecord>, k: int)
    requires forall i :: 0 <= i < |h| ==> h[i].score != k
    ensures WithScore(h, k) == []
  {
    if |h| > 0 {
      WithScoreNone(h[1..], k);
    }
  }

  /** A non-empty sequence is its front followed by its last element. */
  lemma SplitLast(s: seq<ScoreRecord>)
    requires |s| > 0
    ensures s == s[..|s| - 1] + [s[|s| - 1]]
  {
  }

  /** Two sequences that agree on their first `n` entries have the same
      prefix of length `n`. */
  lemma SamePrefix(a: seq<ScoreRecord>, b: seq<ScoreRecord>, n: int)
    requires 0 <= n <= |a| && n <= |b|
    requires forall i :: 0 <= i < n ==> a[i] == b[i]
    ensures a[..n] == b[..n]
  {
  }

  /** A sequence is its first `n` entries followed by the rest. */
  lemma SplitAt(s: seq<ScoreRecord>, n: int)
    requires 0 <= n <= |s|
    ensures s == s[..n] + s[n..]
  {
  }

  /** Splicing `x` into the tail of `h` and putting the head back in front
      splices it one place further into `h`. */
  lemma ConsSplice(h: seq<ScoreRecord>, x: ScoreRecord, n: int)
    requires 0 <= n < |h|
    ensures [h[0]] + (h[1..][..n] + [x] + h[1..][n..]) == h[..n + 1] + [x] + h[n + 1..]
  {
    assert [h[0]] + h[1..][..n] == h[..n + 1];
    assert h[1..][n..] == h[n + 1..];
  }

  /** One step of a stable insertion sort: `x` goes behind every record that
      scores at least as much, so among equal scores it comes last. */
  function Insert(h: seq<ScoreRecord>, x: ScoreRecord): (h': seq<ScoreRecord>)
    requires SortedDesc(h)
    ensures h' == h[..CountAtLeast(h, x.score)] + [x] + h[CountAtLeast(h, x.score)..]
    decreases |h|
  {
    if |h| == 0 then [x]
    else if h[0].score >= x.score then
      ConsSplice(h, x, CountAtLeast(h[1..], x.score));
      [h[0]] + Insert(h[1..], x)
    else
      CountAtLeastPrefix(h, x.score);
      [x] + h
  }

  /** Where the records of `h` and `x` sit after inserting `x`. */
  lemma InsertIndex(h: seq<ScoreRecord>, x: ScoreRecord, i: int)
    requires SortedDesc(h) && 0 <= i <= |h|
    ensures var n := CountAtLeast(h, x.score);
      Insert(h, x)[i] == if i < n then h[i] else if i == n then x else h[i - 1]
  {
  }

  /** Insertion leaves the records ahead of the new one where they were. */
  lemma InsertKeepsPrefix(h: seq<ScoreRecord>, x: ScoreRecord, m: int)
    requires SortedDesc(h) && 0 <= m <= CountAtLeast(h, x.score)
    ensures Insert(h, x)[..m] == h[..m]
  {
    forall i | 0 <= i < m
      ensures Insert(h, x)[i] == h[i]
    {
      InsertIndex(h, x, i);
    }
    SamePrefix(Insert(h, x), h, m);
  }

  /** Inserting into a sorted history keeps it sorted. */
  lemma InsertSorted(h: seq<ScoreRecord>, x: ScoreRecord)
    requires SortedDesc(h)
    ensures SortedDesc(Insert(h, x))
  {
    var n := CountAtLeast(h, x.score);
    var h' := Insert(h, x);
    CountAtLeastPrefix(h, x.score);
    forall i, j | 0 <= i < j < |h'|
      ensures h'[i].score >= h'[j].score
    {
      InsertIndex(h, x, i);
      InsertIndex(h, x, j);
    }
  }

  /** Inserting keeps every record and adds `x`. */
  lemma InsertMultiset(h: seq<ScoreRecord>, x: ScoreRecord)
    requires SortedDesc(h)
    ensures multiset(Insert(h, x)) == multiset(h) + multiset{x}
  {
    var n := CountAtLeast(h, x.score);
    assert h == h[..n] + h[n..];
  }

  lemma InsertCount(h: seq<ScoreRecord>, x: ScoreRecord, v: int)
    requires SortedDesc(h)
    ensures CountAtLeast(Insert(h, x), v) == CountAtLeast(h, v) + (if x.score >= v then 1 else 0)
  {
    var n := CountAtLeast(h, x.score);
    assert h == h[..n] + h[n..];
    CountAtLeastAppend(h[..n] + [x], h[n..], v);
    CountAtLeastAppend(h[..n], [x], v);
    CountAtLeastAppend(h[..n], h[n..], v);
  }

  /** Putting `x` between `front` and `back`, where `back` holds only lower
      scores, adds `x` at the end of the records of its score. */
  lemma WithScoreBetween(front: seq<ScoreRecord>, x: ScoreRecord, back: seq<ScoreRecord>, k: int)
    requires forall i :: 0 <= i < |back| ==> back[i].score < x.score
    ensures WithScore(front + [x] + back, k) == WithScore(front + back, k) + (if x.score == k then [x] else [])
  {
    WithScoreAppend(front + [x], back, k);
    WithScoreAppend(front, [x], k);
    WithScoreAppend(front, back, k);
    if x.score == k {
      WithScoreNone(back, k);
    }
  }

  /** Inserting `x` appends it to the records of its own score and leaves the
      records of every other score in their order. */
  lemma InsertStable(h: seq<ScoreRecord>, x: ScoreRecord, k: int)
    requires SortedDesc(h)
    ensures WithScore(Insert(h, x), k) == WithScore(h, k) + (if x.score == k then [x] else [])
  {
    var n := CountAtLeast(h, x.score);
    CountAtLeastPrefix(h, x.score);
    SplitAt(h, n);
    WithScoreBetween(h[..n], x, h[n..], k);
  }

  /** The records sorted by score, highest first, ties in their old order:
      records are inserted one after the other, in the order they come. */
  function SortDesc(s: seq<ScoreRecord>): (t: seq<ScoreRecord>)
    ensures SortedDesc(t)
    ensures |t| == |s|
    ensures multiset(t) == multiset(s)
    decreases |s|
  {
    if |s| == 0 then []
    else
      SplitLast(s);
      var init := SortDesc(s[..|s| - 1]);
      InsertMultiset(init, s[|s| - 1]);
      InsertSorted(init, s[|s| - 1]);
      Insert(init, s[|s| - 1])
  }

  /** The sort is stable: for every score, the records with that score keep
      their relative order. */
  lemma {:induction false} SortDescStable(s: seq<ScoreRecord>, k: int)
    ensures WithScore(SortDesc(s), k) == WithScore(s, k)
    decreases |s|
  {
    if |s| > 0 {
      var init, last := s[..|s| - 1], s[|s| - 1];
      var tail := if last.score == k then [last] else [];
      calc {
        WithScore(SortDesc(s), k);
        WithScore(Insert(SortDesc(init), last), k);
        { InsertStable(SortDesc(init), last, k); }
        WithScore(SortDesc(init), k) + tail;
        { SortDescStable(init, k); }
        WithScore(init, k) + tail;
        { WithScoreAppend(init, [last], k); }
        WithScore(init + [last], k);
        { SplitLast(s); }
        WithScore(s, k);
      }
    }
  }

  /** Sorting does not change how many records reach a score. */
  lemma {:induction false} SortDescCount(s: seq<ScoreRecord>, v: int)
    ensures CountAtLeast(SortDesc(s), v) == CountAtLeast(s, v)
    decreases |s|
  {
    if |s| > 0 {
      var init, last := s[..|s| - 1], s[|s| - 1];
      var one := if last.score >= v then 1 else 0;
      calc {
        CountAtLeast(SortDesc(s), v);
        CountAtLeast(Insert(SortDesc(init), last), v);
        { InsertCount(SortDesc(init), last, v); }
        CountAtLeast(SortDesc(init), v) + one;
        { SortDescCount(init, v); }
        CountAtLeast(init, v) + one;
        { CountAtLeastAppend(init, [last], v); }
        CountAtLeast(init + [last], v);
        { SplitLast(s); }
        CountAtLeast(s, v);
      }
    }
  }

  /** Sorting a history that is already sorted changes nothing; the history
      the game stores is always of this kind. */
  lemma {:induction false} SortDescOfSorted(s: seq<ScoreRecord>)
    requires SortedDesc(s)
    ensures SortDesc(s) == s
    decreases |s|
  {
    if |s| > 0 {
      var init := s[..|s| - 1];
      var last := s[|s| - 1];
      SplitLast(s);
      SortDescOfSorted(init);
      CountAtLeastPrefix(init, last.score);
      assert CountAtLeast(init, last.score) == |init| by {
        if |init| > 0 {
          assert init[|init| - 1].score >= last.score;
        }
      }
    }
  }

  /** The first `n` records of a sorted sequence are sorted, and none of the
      records after them scores more than any of them. */
  lemma TopRecords(all: seq<ScoreRecord>, n: int)
    requires SortedDesc(all) && 0 <= n <= |all|
    ensures SortedDesc(all[..n])
    ensures multiset(all) - multiset(all[..n]) == multiset(all[n..])
    ensures forall y, z :: y in all[n..] && z in all[..n] ==> z.score >= y.score
  {
    assert all == all[..n] + all[n..];
  }

  /** The history after a record is added: sorted, highest first, at most
      `MaxRecords` long, made of records from the old history and the new
      one, and no record that falls off scores more than one that stays. */
  function RecordScore(h: seq<ScoreRecord>, rec: ScoreRecord): (h': seq<ScoreRecord>)
    ensures SortedDesc(h')
    ensures |h'| == Min(MaxRecords, |h| + 1)
    ensures multiset(h') <= multiset(h + [rec])
    ensures forall y, z :: y in multiset(h + [rec]) - multiset(h') && z in h' ==> z.score >= y.score
  {
    var all := SortDesc(h + [rec]);
    var n := Min(MaxRecords, |all|);
    TopRecords(all, n);
    all[..n]
  }

  /** The kept records are the first ones of the sorted records. */
  lemma RecordScoreAt(h: seq<ScoreRecord>, rec: ScoreRecord, i: int)
    requires 0 <= i < Min(MaxRecords, |h| + 1)
    ensures i < |RecordScore(h, rec)| && RecordScore(h, rec)[i] == SortDesc(h + [rec])[i]
  {
  }

  /** With `MaxRecords` stored records or more, the kept records are the
      first `MaxRecords` of the sorted records. */
  lemma RecordScoreFull(h: seq<ScoreRecord>, rec: ScoreRecord)
    requires |h| >= MaxRecords
    ensures RecordScore(h, rec) == SortDesc(h + [rec])[..MaxRecords]
  {
  }

  /** Sorting the stored records with the new one added is inserting the new
      one into the sorted stored records. */
  lemma SortWithNew(h: seq<ScoreRecord>, rec: ScoreRecord)
    ensures SortDesc(h + [rec]) == Insert(SortDesc(h), rec)
    ensures CountAtLeast(SortDesc(h), rec.score) == CountAtLeast(h, rec.score)
  {
    assert (h + [rec])[..|h|] == h;
    SortDescCount(h, rec.score);
  }

  /** A new record is kept, behind every stored record that scores at least
      as much, when fewer than `MaxRecords` stored records do. */
  lemma NewRecordKept(h: seq<ScoreRecord>, rec: ScoreRecord)
    requires CountAtLeast(h, rec.score) < MaxRecords
    ensures CountAtLeast(h, rec.score) < |RecordScore(h, rec)|
    ensures RecordScore(h, rec)[CountAtLeast(h, rec.score)] == rec
  {
    var n := CountAtLeast(h, rec.score);
    SortWithNew(h, rec);
    InsertIndex(SortDesc(h), rec, n);
    RecordScoreAt(h, rec, n);
  }

  /** When `MaxRecords` stored records score at least as much as the new
      one, the history becomes the best `MaxRecords` stored records. */
  lemma NewRecordDropped(h: seq<ScoreRecord>, rec: ScoreRecord)
    requires CountAtLeast(h, rec.score) >= MaxRecords
    ensures |h| >= MaxRecords
    ensures RecordScore(h, rec) == SortDesc(h)[..MaxRecords]
  {
    var sorted := SortDesc(h);
    SortWithNew(h, rec);
    InsertKeepsPrefix(sorted, rec, MaxRecords);
    RecordScoreFull(h, rec);
  }

  /** Where the new record lands: it is kept exactly when fewer than
      `MaxRecords` stored records score at least as much, and then it sits
      behind all of them; otherwise the history is the best `MaxRecords`
      stored records. */
  lemma NewRecordRank(h: seq<ScoreRecord>, rec: ScoreRecord)
    ensures var n := CountAtLeast(h, rec.score);
      && (n < MaxRecords ==> n < |RecordScore(h, rec)| && RecordScore(h, rec)[n] == rec)
      && (n >= MaxRecords ==> |h| >= MaxRecords && RecordScore(h, rec) == SortDesc(h)[..MaxRecords])
  {
    if CountAtLeast(h, rec.score) < MaxRecords {
      NewRecordKept(h, rec);
    } else {
      NewRecordDropped(h, rec);
    }
  }

  /** The save at the end of a game: only a game that is over and scored
      something adds a record; any other state leaves the history alone. */
  function SaveOnGameOver(h: seq<ScoreRecord>, state: Session.GameState, score: int, date: string): (h': seq<ScoreRecord>)
    ensures !(state == Session.GameOver && score > 0) ==> h' == h
    ensures state == Session.GameOver && score > 0 ==>
      && SortedDesc(h')
      && |h'| == Min(MaxRecords, |h| + 1)
      && multiset(h') <= multiset(h + [ScoreRecord(score, date)])
      && (forall y, z :: y in multiset(h + [ScoreRecord(score, date)]) - multiset(h') && z in h' ==> z.score >= y.score)
      && (CountAtLeast(h, score) < MaxRecords ==> ScoreRecord(score, date) in h')
  {
    if state == Session.GameOver && score > 0 then
      var rec := ScoreRecord(score, date);
      NewRecordRank(h, rec);
      RecordScore(h, rec)
    else
      h
  }
}

=== FILE: opening.dfy ===
/** The board a new game starts from: two equal tiles stacked vertically for
    an easy first move, then further tiles placed on empty cells until the
    board holds `InitialBlocks` tiles. The game finds each empty cell by
    drawing random cells until it hits an empty one; here each placement
    names the empty cell directly, by its rank among the empty cells. */
module Opening {
  import opened Board
  import opened Rules

  /** `p` comes before `q` in row-major order. */
  predicate Before(p: Pos, q: Pos) {
    p.row < q.row || (p.row == q.row && p.col < q.col)
  }

  /** The empty cells of `row`, which holds the cells of board row `r` from
      column `c` on, left to right. */
  function EmptyInRow(row: seq<Cell>, r: int, c: int): (e: seq<Pos>)
    ensures forall i :: 0 <= i < |e| ==>
      e[i].row == r && c <= e[i].col < c + |row| && row[e[i].col - c].None?
    ensures forall i, j :: 0 <= i < j < |e| ==> e[i].col < e[j].col
    decreases |row|
  {
    if |row| == 0 then []
    else (if row[0].None? then [Pos(r, c)] else []) + EmptyInRow(row[1..], r, c + 1)
  }

  /** The empty cells of `rows`, which hold the board rows from `r` on, in
      row-major order. */
  function EmptyInRows(rows: seq<seq<Cell>>, r: int): (e: seq<Pos>)
    ensures forall i :: 0 <= i < |e| ==>
      && r <= e[i].row < r + |rows|
      && 0 <= e[i].col < |rows[e[i].row - r]|
      && rows[e[i].row - r][e[i].col].None?
    ensures forall i, j :: 0 <= i < j < |e| ==> Before(e[i], e[j])
    decreases |rows|
  {
    if |rows| == 0 then []
    else EmptyInRow(rows[0], r, 0) + EmptyInRows(rows[1..], r + 1)
  }

  lemma {:induction false} EmptyInRowComplete(row: seq<Cell>, r: int, c: int, j: int)
    requires 0 <= j < |row| && row[j].None?
    ensures Pos(r, c + j) in EmptyInRow(row, r, c)
    decreases |row|
  {
    if j > 0 {
      EmptyInRowComplete(row[1..], r, c + 1, j - 1);
    }
  }

  lemma {:induction false} EmptyInRowsComplete(rows: seq<seq<Cell>>, r: int, i: int, j: int)
    requires 0 <= i < |rows| && 0 <= j < |rows[i]| && rows[i][j].None?
    ensures Pos(r + i, j) in EmptyInRows(rows, r)
    decreases |rows|
  {
    if i == 0 {
      EmptyInRowComplete(rows[0], r, 0, j);
    } else {
      EmptyInRowsComplete(rows[1..], r + 1, i - 1, j);
    }
  }

  /** The empty cells of the board, in row-major order. */
  function EmptyCells(b: Board): (e: seq<Pos>)
    requires IsBoard(b)
    ensures forall i :: 0 <= i < |e| ==> InBounds(e[i]) && At(b, e[i]).None?
  {
    EmptyInRows(b, 0)
  }

  /** `EmptyCells` lists every empty cell, and each only once. */
  lemma EmptyCellsExact(b: Board)
    requires IsBoard(b)
    ensures forall p :: p in EmptyCells(b) <==> InBounds(p) && At(b, p).None?
    ensures forall i, j :: 0 <= i < j < |EmptyCells(b)| ==> EmptyCells(b)[i] != EmptyCells(b)[j]
  {
    forall p | InBounds(p) && At(b, p).None?
      ensures p in EmptyCells(b)
    {
      EmptyInRowsComplete(b, 0, p.row, p.col);
    }
  }

  /** Putting a tile on an empty cell of a row removes one empty cell. */
  lemma {:induction false} EmptyInRowAfterSet(row: seq<Cell>, r: int, c: int, j: int, t: Tile)
    requires 0 <= j < |row| && row[j].None?
    ensures |EmptyInRow(row[j := Some(t)], r, c)| == |EmptyInRow(row, r, c)| - 1
    decreases |row|
  {
    if j > 0 {
      assert row[j := Some(t)][1..] == row[1..][j - 1 := Some(t)];
      EmptyInRowAfterSet(row[1..], r, c + 1, j - 1, t);
    } else {
      assert row[j := Some(t)][1..] == row[1..];
    }
  }

  /** Putting a tile on an empty cell of the board removes one empty cell. */
  lemma {:induction false} EmptyInRowsAfterSet(rows: seq<seq<Cell>>, r: int, i: int, j: int, t: Tile)
    requires 0 <= i < |rows| && 0 <= j < |rows[i]| && rows[i][j].None?
    ensures |EmptyInRows(rows[i := rows[i][j := Some(t)]], r)| == |EmptyInRows(rows, r)| - 1
    decreases |rows|
  {
    var rows' := rows[i := rows[i][j := Some(t)]];
    if i > 0 {
      assert rows'[1..] == rows[1..][i - 1 := rows[1..][i - 1][j := Some(t)]];
      EmptyInRowsAfterSet(rows[1..], r + 1, i - 1, j, t);
    } else {
      assert rows'[1..] == rows[1..];
      EmptyInRowAfterSet(rows[0], r, 0, j, t);
    }
  }

  lemma EmptyCellsAfterSet(b: Board, p: Pos, t: Tile)
    requires IsBoard(b) && InBounds(p) && At(b, p).None?
    ensures |EmptyCells(Set(b, p, Some(t)))| == |EmptyCells(b)| - 1
  {
    EmptyInRowsAfterSet(b, 0, p.row, p.col, t);
  }

  lemma {:induction false} EmptyRowCount(row: seq<Cell>, r: int, c: int)
    requires forall i :: 0 <= i < |row| ==> row[i].None?
    ensures |EmptyInRow(row, r, c)| == |row|
    decreases |row|
  {
    if |row| > 0 {
      EmptyRowCount(row[1..], r, c + 1);
    }
  }

  lemma {:induction false} EmptyRowsCount(rows: seq<seq<Cell>>, r: int, n: nat)
    requires forall i :: 0 <= i < |rows| ==> |rows[i]| == n && forall j :: 0 <= j < n ==> rows[i][j].None?
    ensures |EmptyInRows(rows, r)| == |rows| * n
    decreases |rows|
  {
    if |rows| > 0 {
      EmptyRowCount(rows[0], r, 0);
      EmptyRowsCount(rows[1..], r + 1, n);
      assert |rows| * n == n + (|rows| - 1) * n;
    }
  }

  /** The empty board has every cell empty. */
  lemma EmptyBoardCount()
    ensures |EmptyCells(EmptyBoard())| == GridSize * GridSize
  {
    EmptyRowsCount(EmptyBoard(), 0, GridSize);
  }

  /** One tile of the opening, placed on the empty cell of rank `slot`
      (counted round the empty cells), with value `NewValues[pick]`. */
  datatype Placement = Placement(slot: nat, pick: ValueIndex)

  /** The random choices of a game's opening: the value and the upper cell of
      the starting pair, and the placements of the remaining tiles. */
  datatype Opening = Opening(pick: ValueIndex, row: int, col: int, placements: seq<Placement>)

  /** Places one tile on an empty cell: every tile already there stays, and
      the new tile is a fresh value tile. */
  function Place(b: Board, pl: Placement): (b': Board)
    requires IsBoard(b) && |EmptyCells(b)| > 0
    ensures IsBoard(b')
    ensures forall r, c :: 0 <= r < GridSize && 0 <= c < GridSize && b[r][c].Some? ==> b'[r][c] == b[r][c]
    ensures forall r, c :: 0 <= r < GridSize && 0 <= c < GridSize && b'[r][c].Some? && b[r][c].None? ==>
      IsNewValueTile(b'[r][c].value)
  {
    var empties := EmptyCells(b);
    var p := empties[pl.slot % |empties|];
    var b' := Set(b, p, Some(Tile(NewValues[pl.pick], false)));
    forall r, c | 0 <= r < GridSize && 0 <= c < GridSize && b'[r][c].Some? && b[r][c].None?
      ensures r == p.row && c == p.col
    {
    }
    b'
  }

  /** A placement fills exactly one empty cell. */
  lemma PlaceCount(b: Board, pl: Placement)
    requires IsBoard(b) && |EmptyCells(b)| > 0
    ensures |EmptyCells(Place(b, pl))| == |EmptyCells(b)| - 1
  {
    var empties := EmptyCells(b);
    var p := empties[pl.slot % |empties|];
    EmptyCellsAfterSet(b, p, Tile(NewValues[pl.pick], false));
  }

  /** Places the tiles one after the other. */
  function Seed(b: Board, ps: seq<Placement>): (b': Board)
    requires IsBoard(b) && |ps| <= |EmptyCells(b)|
    ensures IsBoard(b')
    ensures forall r, c :: 0 <= r < GridSize && 0 <= c < GridSize && b[r][c].Some? ==> b'[r][c] == b[r][c]
    ensures forall r, c :: 0 <= r < GridSize && 0 <= c < GridSize && b'[r][c].Some? && b[r][c].None? ==>
      IsNewValueTile(b'[r][c].value)
    decreases |ps|
  {
    if |ps| == 0 then b
    else
      PlaceCount(b, ps[0]);
      var b1 := Place(b, ps[0]);
      var b' := Seed(b1, ps[1..]);
      forall r, c | 0 <= r < GridSize && 0 <= c < GridSize && b'[r][c].Some? && b[r][c].None?
        ensures IsNewValueTile(b'[r][c].value)
      {
        if b1[r][c].Some? {
          assert b'[r][c] == b1[r][c];
        }
      }
      b'
  }

  /** Every placement fills one more empty cell. */
  lemma {:induction false} SeedCount(b: Board, ps: seq<Placement>)
    requires IsBoard(b) && |ps| <= |EmptyCells(b)|
    ensures |EmptyCells(Seed(b, ps))| == |EmptyCells(b)| - |ps|
    decreases |ps|
  {
    if |ps| > 0 {
      PlaceCount(b, ps[0]);
      SeedCount(Place(b, ps[0]), ps[1..]);
    }
  }

  /** The preconditions on the random choices: the pair's upper cell has a
      row below it, and there are as many placements as tiles still to come. */
  predicate ValidOpening(o: Opening) {
    && 0 <= o.row < GridSize - 1
    && 0 <= o.col < GridSize
    && |o.placements| == InitialBlocks - 2
  }

  /** The board holding only the starting pair: two tiles of the same fresh
      value, one on top of the other. */
  function PairBoard(o: Opening): (b: Board)
    requires ValidOpening(o)
    ensures IsBoard(b)
    ensures |EmptyCells(b)| == GridSize * GridSize - 2
    ensures forall r, c :: 0 <= r < GridSize && 0 <= c < GridSize && b[r][c].Some? ==> IsNewValueTile(b[r][c].value)
    ensures b[o.row][o.col] == b[o.row + 1][o.col] == Some(Tile(NewValues[o.pick], false))
  {
    var t := Tile(NewValues[o.pick], false);
    var upper := Pos(o.row, o.col);
    var lower := Pos(o.row + 1, o.col);
    var b0 := EmptyBoard();
    EmptyBoardCount();
    var b1 := Set(b0, upper, Some(t));
    EmptyCellsAfterSet(b0, upper, t);
    EmptyCellsAfterSet(b1, lower, t);
    Set(b1, lower, Some(t))
  }

  /** The starting board. It holds exactly `InitialBlocks` tiles, all fresh
      value tiles and no blocker, and the two stacked cells of the starting
      pair hold equal tiles, so they form a legal move and the first hint
      always exists. */
  function StartBoard(o: Opening): (b: Board)
    requires ValidOpening(o)
    ensures IsBoard(b)
    ensures |EmptyCells(b)| == GridSize * GridSize - InitialBlocks
    ensures forall r, c :: 0 <= r < GridSize && 0 <= c < GridSize && b[r][c].Some? ==> IsNewValueTile(b[r][c].value)
    ensures b[o.row][o.col] == b[o.row + 1][o.col] == Some(Tile(NewValues[o.pick], false))
    ensures IsLegalMove(b, Pos(o.row, o.col), Pos(o.row + 1, o.col))
    ensures HasLegalMove(b)
  {
    var b2 := PairBoard(o);
    SeedCount(b2, o.placements);
    var b := Seed(b2, o.placements);
    assert b[o.row][o.col] == b2[o.row][o.col];
    assert b[o.row + 1][o.col] == b2[o.row + 1][o.col];
    assert IsLegalMove(b, Pos(o.row, o.col), Pos(o.row + 1, o.col));
    b
  }
}

=== FILE: refill.dfy ===
/** Settling the board after a merge: gravity, then every empty cell gets a
    fresh tile. The game draws the fresh tiles at random; here the draws are
    an explicit grid of `Roll`s, one per cell, of which only the rolls of the
    cells left empty by gravity are used. */
module Refill {
  import opened Board
  import opened Gravity

  /** The random outcome for one refilled cell: whether the one-in-ten
      blocker draw came up, and which of `NewValues` a value tile takes. */
  datatype Roll = Roll(blocker: bool, pick: ValueIndex)

  /** One roll per cell of the board. */
  type Rolls = seq<seq<Roll>>

  /** A tile that the refill may create when the score is `score`: a fresh
      value tile, or a blocker once the score has reached the threshold. */
  predicate IsSpawn(t: Tile, score: int) {
    IsNewValueTile(t) || (t == Blocker && score >= BlockerScore)
  }

  /** The tile created for one empty cell. The blocker draw is consulted only
      from `BlockerScore` on. */
  function NewTile(roll: Roll, score: int): (t: Tile)
    ensures IsSpawn(t, score)
    ensures t.isBlocker <==> score >= BlockerScore && roll.blocker
  {
    if score >= BlockerScore && roll.blocker then Blocker else Tile(NewValues[roll.pick], false)
  }

  /** Fills every empty cell with a new tile and leaves the others alone. */
  function Fill(b: Board, score: int, rolls: Rolls): (b': Board)
    requires IsBoard(b) && IsGrid(rolls)
    ensures IsBoard(b') && IsFull(b')
    ensures forall r, c :: 0 <= r < GridSize && 0 <= c < GridSize && b[r][c].Some? ==> b'[r][c] == b[r][c]
    ensures forall r, c :: 0 <= r < GridSize && 0 <= c < GridSize && b[r][c].None? ==> IsSpawn(b'[r][c].value, score)
  {
    seq(GridSize, r requires 0 <= r < GridSize =>
      seq(GridSize, c requires 0 <= c < GridSize =>
        if b[r][c].Some? then b[r][c] else Some(NewTile(rolls[r][c], score))))
  }

  /** One column of the settled board: given that gravity compacted column
      `c` into `g` and the refill kept every tile of `g`, the old tiles sit
      at the bottom in their old order and the cells above them were empty
      after gravity. */
  lemma SettledColumn(b: Board, g: Board, b': Board, c: int)
    requires IsBoard(b) && IsBoard(g) && IsBoard(b') && 0 <= c < GridSize
    requires Column(g, c) == Compacted(Column(b, c))
    requires forall r :: 0 <= r < GridSize && g[r][c].Some? ==> b'[r][c] == g[r][c]
    ensures Column(b', c)[Gap(Column(b, c))..] == Present(Column(b, c))
    ensures forall r :: 0 <= r < Gap(Column(b, c)) ==> g[r][c].None?
  {
    var col := Column(b, c);
    CompactedShape(col);
    forall i | Gap(col) <= i < GridSize
      ensures Column(b', c)[i] == Compacted(col)[i]
    {
      assert g[i][c] == Compacted(col)[i];
    }
    assert Compacted(col)[Gap(col)..] == Present(col);
    forall r | 0 <= r < Gap(col)
      ensures g[r][c].None?
    {
      assert g[r][c] == Compacted(col)[r];
    }
  }

  /** Gravity followed by refill. `score` is the score the refill consults
      for blockers; the game passes the score from before the merge. After
      it, no cell is empty; in every column the tiles that were there before
      sit at the bottom in their old order, and above them lie new tiles. */
  function DropAndFill(b: Board, score: int, rolls: Rolls): (b': Board)
    requires IsBoard(b) && IsGrid(rolls)
    ensures IsBoard(b') && IsFull(b')
    ensures forall c :: 0 <= c < GridSize ==> Column(b', c)[Gap(Column(b, c))..] == Present(Column(b, c))
    ensures forall r, c :: 0 <= r < GridSize && 0 <= c < GridSize && r < Gap(Column(b, c)) ==>
      IsSpawn(b'[r][c].value, score)
  {
    var g := ApplyGravity(b);
    var b' := Fill(g, score, rolls);
    forall c | 0 <= c < GridSize
      ensures Column(b', c)[Gap(Column(b, c))..] == Present(Column(b, c))
      ensures forall r :: 0 <= r < Gap(Column(b, c)) ==> g[r][c].None?
    {
      SettledColumn(b, g, b', c);
    }
    b'
  }

  /** Gravity does nothing to a column that has already settled. */
  lemma CompactedIdempotent(col: seq<Cell>)
    ensures Compacted(Compacted(col)) == Compacted(col)
  {
    CompactedShape(col);
  }

  lemma {:induction false} PresentOfFull(col: seq<Cell>)
    requires forall i :: 0 <= i < |col| ==> col[i].Some?
    ensures Present(col) == col
  {
    if |col| > 0 {
      PresentOfFull(col[1..]);
    }
  }

  /** A column without empty cells settles into itself. */
  lemma FullColumnSettles(col: seq<Cell>, got: seq<Cell>)
    requires |got| == |col|
    requires forall i :: 0 <= i < |col| ==> col[i].Some?
    requires got[Gap(col)..] == Present(col)
    ensures got == col
  {
    PresentOfFull(col);
    assert got[0..] == got;
  }

  lemma FullBoardColumn(b: Board, b': Board, c: int)
    requires IsBoard(b) && IsBoard(b') && IsFull(b) && 0 <= c < GridSize
    requires Column(b', c)[Gap(Column(b, c))..] == Present(Column(b, c))
    ensures Column(b', c) == Column(b, c)
  {
    FullColumnSettles(Column(b, c), Column(b', c));
  }

  /** Settling a board that has no empty cell changes nothing, whatever the
      rolls and the score. */
  lemma DropAndFillFullBoard(b: Board, score: int, rolls: Rolls)
    requires IsBoard(b) && IsGrid(rolls) && IsFull(b)
    ensures DropAndFill(b, score, rolls) == b
  {
    var b': Board := DropAndFill(b, score, rolls);
    forall c | 0 <= c < GridSize
      ensures Column(b', c) == Column(b, c)
    {
      FullBoardColumn(b, b', c);
    }
    SameColumns(b', b);
  }

  /** No blocker is created below the score threshold: a board without
      blockers settles into a board without blockers. */
  lemma NoBlockersBelowThreshold(b: Board, score: int, rolls: Rolls)
    requires IsBoard(b) && IsGrid(rolls) && score < BlockerScore
    requires forall r, c :: 0 <= r < GridSize && 0 <= c < GridSize && b[r][c].Some? ==> !b[r][c].value.isBlocker
    ensures var b' := DropAndFill(b, score, rolls);
      forall r, c :: 0 <= r < GridSize && 0 <= c < GridSize ==> !b'[r][c].value.isBlocker
  {
    forall r, c | 0 <= r < GridSize && 0 <= c < GridSize
      ensures !DropAndFill(b, score, rolls)[r][c].value.isBlocker
    {
      SettledTileOrigin(b, score, rolls, r, c);
      var x := DropAndFill(b, score, rolls)[r][c];
      if x in Column(b, c) {
        var k :| 0 <= k < GridSize && Column(b, c)[k] == x;
        assert b[k][c] == x;
      }
    }
  }

  /** Every tile on the board after settling was either on the board before,
      in the same column, or is a new spawn. */
  lemma SettledTileOrigin(b: Board, score: int, rolls: Rolls, r: int, c: int)
    requires IsBoard(b) && IsGrid(rolls) && 0 <= r < GridSize && 0 <= c < GridSize
    ensures var x := DropAndFill(b, score, rolls)[r][c];
      x in Column(b, c) || IsSpawn(x.value, score)
  {
    var b': Board := DropAndFill(b, score, rolls);
    var col := Column(b, c);
    if r >= Gap(col) {
      assert b'[r][c] == Column(b', c)[Gap(col)..][r - Gap(col)];
      PresentIsSubsequence(col, b'[r][c]);
    }
  }
}

=== FILE: rules.dfy ===
/** When two cells of the board may be merged. */
module Rules {
  import opened Board

  function Abs(x: int): int {
    if x < 0 then -x else x
  }

  /** Four-directional neighbours: Manhattan distance exactly 1. */
  predicate Adjacent(p: Pos, q: Pos) {
    Abs(p.row - q.row) + Abs(p.col - q.col) == 1
  }

  /** Two values pair up when they are equal or add up to the target. */
  predicate Pairs(a: int, b: int) {
    a == b || a + b == TargetSum
  }

  /** A legal move: two neighbouring, non-blocker tiles whose values pair up.
      Such a move always joins two distinct cells of the board that share a
      row or a column. */
  predicate IsLegalMove(b: Board, p: Pos, q: Pos): (legal: bool)
    requires IsBoard(b)
    ensures legal ==> InBounds(p) && InBounds(q) && p != q && (p.row == q.row || p.col == q.col)
  {
    && InBounds(p) && InBounds(q)
    && Mergeable(At(b, p)) && Mergeable(At(b, q))
    && Adjacent(p, q)
    && Pairs(At(b, p).value.value, At(b, q).value.value)
  }

  /** Some legal move exists on the board. */
  ghost predicate HasLegalMove(b: Board)
    requires IsBoard(b)
  {
    exists p, q :: IsLegalMove(b, p, q)
  }

  /** Legality does not depend on the order of the two positions. */
  lemma LegalMoveSymmetric(b: Board, p: Pos, q: Pos)
    requires IsBoard(b)
    ensures IsLegalMove(b, p, q) <==> IsLegalMove(b, q, p)
  {
  }

  /** Clicking the same tile twice is never a legal move. */
  lemma LegalMoveIrreflexive(b: Board, p: Pos)
    requires IsBoard(b)
    ensures !IsLegalMove(b, p, p)
  {
  }

  /** A legal move always involves two distinct cells in the same row or the
      same column, one step apart. */
  lemma LegalMoveNeighbours(b: Board, p: Pos, q: Pos)
    requires IsBoard(b) && IsLegalMove(b, p, q)
    ensures (p.row == q.row && (q.col == p.col + 1 || q.col == p.col - 1))
         || (p.col == q.col && (q.row == p.row + 1 || q.row == p.row - 1))
  {
  }
}

=== FILE: session.dfy ===
/** The game session: score, clock, shuffles, selection and game state, and
    the transitions the player and the one-second clock drive. Every
    transition is a pure function of the session and the random draws it
    needs; sounds, animations timing and the hint timer are not modelled. */
module Session {
  import opened Board
  import opened Rules
  import opened Gravity
  import opened Refill
  import opened Opening

  datatype GameState = Playing | GameOver | StartMenu

  datatype Session = Session(
    board: Board,
    score: int,
    highScore: int,
    timer: int,
    shuffles: int,
    selected: Option<Pos>,
    state: GameState)

  /** What a click shows the player besides the new session: nothing, a new
      selection, a merge animation at the clicked cell, or an error flash at
      the clicked cell. */
  datatype Signal = Quiet | Selected(at: Pos) | Merged(at: Pos, value: int) | Failed(at: Pos)

  datatype Step = Step(session: Session, signal: Signal)

  function Max(a: int, b: int): int {
    if a < b then b else a
  }

  /** Tiles as the game creates them: blockers carry -1, every other tile is
      a fresh value of at least 2 or a sum of two such values. */
  predicate WellFormedTile(t: Tile) {
    if t.isBlocker then t == Blocker else t.value >= 2
  }

  /** The invariant every reachable session keeps. In particular the selected
      cell, when there is one, always holds a tile that may be merged. */
  predicate Valid(s: Session) {
    && IsBoard(s.board)
    && WellFormedBoard(s.board)
    && 0 <= s.score <= s.highScore
    && s.timer >= 0
    && 0 <= s.shuffles <= InitialShuffles
    && (s.selected.Some? ==> InBounds(s.selected.value) && Mergeable(At(s.board, s.selected.value)))
  }

  /** The session when the game is first shown: the start menu, an empty
      board, and the high score read back from storage. */
  function Initial(highScore: int): (s: Session)
    ensures s.state == StartMenu && s.score == 0 && s.selected == None
    ensures IsBoard(s.board) && forall r, c :: 0 <= r < GridSize && 0 <= c < GridSize ==> s.board[r][c].None?
    ensures s.timer == InitialTime && s.shuffles == InitialShuffles && s.highScore == highScore
    ensures highScore >= 0 ==> Valid(s)
  {
    Session(EmptyBoard(), 0, highScore, InitialTime, InitialShuffles, None, StartMenu)
  }

  /** Seconds a merge adds, decided by the score before the merge. */
  function MergeBonus(score: int): (bonus: int)
    ensures bonus == TimeBonus || bonus == TimeBonus - 1
    ensures bonus == TimeBonus <==> score <= BonusDropScore
  {
    if score > BonusDropScore then TimeBonus - 1 else TimeBonus
  }

  /** The test the game applies to a second click on `p` while `q` is
      selected. It does not look at whether the selected tile is a blocker. */
  predicate ClickMatches(b: Board, q: Pos, p: Pos): (matches: bool)
    requires IsBoard(b) && InBounds(q) && InBounds(p)
    ensures matches ==> q != p && At(b, q).Some? && At(b, p).Some?
    ensures Mergeable(At(b, q)) && Mergeable(At(b, p)) ==> (matches <==> IsLegalMove(b, q, p))
  {
    && At(b, q).Some? && At(b, p).Some?
    && Adjacent(q, p)
    && Pairs(At(b, q).value.value, At(b, p).value.value)
  }

  /** The board right after a merge, before it settles: the merged tile on
      the clicked cell `to`, the selected cell `from` emptied. */
  function MergeBoard(b: Board, from: Pos, to: Pos): (b': Board)
    requires IsBoard(b) && InBounds(from) && InBounds(to) && from != to
    requires At(b, from).Some? && At(b, to).Some?
    ensures IsBoard(b')
    ensures At(b', to) == Some(Tile(At(b, from).value.value + At(b, to).value.value, false))
    ensures At(b', from) == None
    ensures forall r, c :: 0 <= r < GridSize && 0 <= c < GridSize && Pos(r, c) != from && Pos(r, c) != to ==>
      b'[r][c] == b[r][c]
  {
    var merged := Tile(At(b, from).value.value + At(b, to).value.value, false);
    Set(Set(b, to, Some(merged)), from, None)
  }

  /** The merge a matching second click performs: the clicked cell `p`
      takes the sum of the two values, the selected cell `q` empties, the
      board settles with the old score, the score grows by the sum and the
      clock by the bonus for the old score, and the selection clears. */
  function MergeStep(s: Session, q: Pos, p: Pos, rolls: Rolls): (r: Step)
    requires IsBoard(s.board) && InBounds(q) && InBounds(p) && q != p && IsGrid(rolls)
    requires At(s.board, q).Some? && At(s.board, p).Some?
    ensures var v := At(s.board, q).value.value + At(s.board, p).value.value;
      && r.signal == Merged(p, v)
      && r.session.score == s.score + v
      && r.session.highScore == Max(s.highScore, s.score + v)
    ensures r.session.timer == s.timer + MergeBonus(s.score)
    ensures r.session.board == DropAndFill(MergeBoard(s.board, q, p), s.score, rolls)
    ensures IsFull(r.session.board)
    ensures r.session.selected == None
    ensures r.session.shuffles == s.shuffles && r.session.state == s.state
  {
    var v := At(s.board, q).value.value + At(s.board, p).value.value;
    var board := DropAndFill(MergeBoard(s.board, q, p), s.score, rolls);
    assert IsFull(board);
    var score := s.score + v;
    Step(s.(board := board, score := score, highScore := Max(s.highScore, score),
            timer := s.timer + MergeBonus(s.score), selected := None),
         Merged(p, v))
  }

  /** A click on cell `p`. `rolls` supplies the tiles the refill creates if
      the click completes a merge. */
  function Click(s: Session, p: Pos, rolls: Rolls): (r: Step)
    requires IsBoard(s.board) && InBounds(p) && IsGrid(rolls)
    requires s.selected.Some? ==> InBounds(s.selected.value)
    // Outside play, and on an empty cell, a click does nothing at all.
    ensures s.state != Playing || At(s.board, p).None? ==> r == Step(s, Quiet)
    // A blocker flashes an error but keeps the selection and everything else.
    ensures s.state == Playing && At(s.board, p).Some? && At(s.board, p).value.isBlocker ==>
      r == Step(s, Failed(p))
    // A first click selects.
    ensures s.state == Playing && Mergeable(At(s.board, p)) && s.selected.None? ==>
      r == Step(s.(selected := Some(p)), Selected(p))
    // A matching second click merges.
    ensures s.state == Playing && Mergeable(At(s.board, p)) && s.selected.Some? &&
            ClickMatches(s.board, s.selected.value, p) ==>
      r == MergeStep(s, s.selected.value, p, rolls) && r.session.state == Playing
    // Any other second click costs time, never below zero, and clears the
    // selection; board and score stay.
    ensures s.state == Playing && Mergeable(At(s.board, p)) && s.selected.Some? &&
            !ClickMatches(s.board, s.selected.value, p) ==>
      r == Step(s.(timer := Max(0, s.timer - TimePenalty), selected := None), Failed(p))
  {
    if s.state != Playing then Step(s, Quiet)
    else
      var clicked := At(s.board, p);
      if clicked.None? then Step(s, Quiet)
      else if clicked.value.isBlocker then Step(s, Failed(p))
      else match s.selected
        case None => Step(s.(selected := Some(p)), Selected(p))
        case Some(q) =>
          if ClickMatches(s.board, q, p) then MergeStep(s, q, p, rolls)
          else Step(s.(timer := Max(0, s.timer - TimePenalty), selected := None), Failed(p))
  }

  /** On a valid session the game's own test on a second click is exactly
      move legality. */
  lemma ClickMatchesIsLegal(s: Session, p: Pos)
    requires Valid(s) && s.selected.Some? && InBounds(p) && Mergeable(At(s.board, p))
    ensures ClickMatches(s.board, s.selected.value, p) <==> IsLegalMove(s.board, s.selected.value, p)
  {
  }

  /** A click merges exactly when the game is on, a tile is selected, and the
      selected and clicked cells form a legal move. */
  lemma ClickMergesIffLegal(s: Session, p: Pos, rolls: Rolls)
    requires Valid(s) && InBounds(p) && IsGrid(rolls)
    ensures Click(s, p, rolls).signal.Merged? <==>
      s.state == Playing && s.selected.Some? && IsLegalMove(s.board, s.selected.value, p)
  {
    if s.state == Playing && s.selected.Some? && Mergeable(At(s.board, p)) {
      ClickMatchesIsLegal(s, p);
    }
  }

  /** Clicking the selected tile again is never a merge: it costs time. */
  lemma ReclickIsPenalised(s: Session, rolls: Rolls)
    requires Valid(s) && s.state == Playing && s.selected.Some? && IsGrid(rolls)
    ensures var q := s.selected.value;
      Click(s, q, rolls) == Step(s.(timer := Max(0, s.timer - TimePenalty), selected := None), Failed(q))
  {
  }

  /** A rejected second click can run the clock down to zero without ending
      the game: only a clock tick ends it. */
  lemma PenaltyKeepsPlaying(s: Session, p: Pos, rolls: Rolls)
    requires Valid(s) && s.state == Playing && s.selected.Some? && s.timer <= TimePenalty
    requires InBounds(p) && Mergeable(At(s.board, p)) && !ClickMatches(s.board, s.selected.value, p) && IsGrid(rolls)
    ensures Click(s, p, rolls).session.timer == 0
    ensures Click(s, p, rolls).session.state == Playing
  {
  }

  /** A merge made with the clock at zero, before the next tick, wins time
      back and the game goes on. */
  lemma MergeAtZeroKeepsPlaying(s: Session, p: Pos, rolls: Rolls)
    requires Valid(s) && s.state == Playing && s.selected.Some? && s.timer == 0
    requires InBounds(p) && Mergeable(At(s.board, p)) && ClickMatches(s.board, s.selected.value, p) && IsGrid(rolls)
    ensures Click(s, p, rolls).session.timer == MergeBonus(s.score) > 0
    ensures Click(s, p, rolls).session.state == Playing
  {
  }

  /** Every tile on the board is well formed. */
  predicate WellFormedBoard(b: Board)
    requires IsBoard(b)
  {
    forall r, c :: 0 <= r < GridSize && 0 <= c < GridSize && b[r][c].Some? ==> WellFormedTile(b[r][c].value)
  }

  lemma SettledCellWellFormed(b: Board, score: int, rolls: Rolls, i: int, c: int)
    requires IsBoard(b) && IsGrid(rolls) && WellFormedBoard(b) && 0 <= i < GridSize && 0 <= c < GridSize
    ensures WellFormedTile(DropAndFill(b, score, rolls)[i][c].value)
  {
    SettledTileOrigin(b, score, rolls, i, c);
    var x := DropAndFill(b, score, rolls)[i][c];
    if x in Column(b, c) {
      var k :| 0 <= k < GridSize && Column(b, c)[k] == x;
      assert b[k][c] == x;
    } else if IsNewValueTile(x.value) {
      NewValueRange(x.value);
    }
  }

  /** Settling keeps tiles well formed: old tiles only move, new ones are
      fresh values or blockers. */
  lemma SettlePreservesWellFormed(b: Board, score: int, rolls: Rolls)
    requires IsBoard(b) && IsGrid(rolls) && WellFormedBoard(b)
    ensures WellFormedBoard(DropAndFill(b, score, rolls))
  {
    forall i, c | 0 <= i < GridSize && 0 <= c < GridSize
      ensures WellFormedTile(DropAndFill(b, score, rolls)[i][c].value)
    {
      SettledCellWellFormed(b, score, rolls, i, c);
    }
  }

  /** Merging two well-formed value tiles gives a well-formed board. */
  lemma MergePreservesWellFormed(b: Board, from: Pos, to: Pos)
    requires IsBoard(b) && InBounds(from) && InBounds(to) && from != to
    requires Mergeable(At(b, from)) && Mergeable(At(b, to)) && WellFormedBoard(b)
    ensures WellFormedBoard(MergeBoard(b, from, to))
  {
    var m: Board := MergeBoard(b, from, to);
    forall i, c | 0 <= i < GridSize && 0 <= c < GridSize && m[i][c].Some?
      ensures WellFormedTile(m[i][c].value)
    {
      if Pos(i, c) != from && Pos(i, c) != to {
        assert m[i][c] == b[i][c];
      }
    }
  }

  /** Clicks keep the session valid. */
  lemma ClickPreservesValid(s: Session, p: Pos, rolls: Rolls)
    requires Valid(s) && InBounds(p) && IsGrid(rolls)
    ensures Valid(Click(s, p, rolls).session)
  {
    if s.state == Playing && Mergeable(At(s.board, p)) && s.selected.Some? &&
       ClickMatches(s.board, s.selected.value, p) {
      var q := s.selected.value;
      assert WellFormedBoard(s.board);
      MergePreservesWellFormed(s.board, q, p);
      SettlePreservesWellFormed(MergeBoard(s.board, q, p), s.score, rolls);
    }
  }

  /** The number of blockers in a column. */
  function BlockersIn(col: seq<Cell>): nat {
    multiset(col)[Some(Blocker)]
  }

  /** A merge touches two value tiles only, so no column loses or gains a
      blocker. */
  lemma MergeKeepsBlockers(b: Board, from: Pos, to: Pos, c: int)
    requires IsBoard(b) && InBounds(from) && InBounds(to) && from != to
    requires Mergeable(At(b, from)) && Mergeable(At(b, to)) && 0 <= c < GridSize
    ensures BlockersIn(Column(MergeBoard(b, from, to), c)) == BlockersIn(Column(b, c))
  {
    var m: Board := MergeBoard(b, from, to);
    var col := Column(b, c);
    var t := if to.col == c then col[to.row := At(m, to)] else col;
    var mc := if from.col == c then t[from.row := None] else t;
    assert Column(m, c) == mc;
  }

  /** Settling never removes a blocker from a column: the old tiles of a
      column all stay in it, and the refill only adds. */
  lemma SettleKeepsBlockers(b: Board, score: int, rolls: Rolls, c: int)
    requires IsBoard(b) && IsGrid(rolls) && 0 <= c < GridSize
    ensures BlockersIn(Column(DropAndFill(b, score, rolls), c)) >= BlockersIn(Column(b, c))
  {
    var col := Column(b, c);
    var settled := Column(DropAndFill(b, score, rolls), c);
    var g := Gap(col);
    PresentMultiset(col);
    assert Some(Blocker) !in Empties(g);
    assert settled == settled[..g] + settled[g..];
  }

  /** No click removes a blocker: every column holds at least as many
      blockers after the click as before. */
  lemma ClickKeepsBlockers(s: Session, p: Pos, rolls: Rolls, c: int)
    requires Valid(s) && InBounds(p) && IsGrid(rolls) && 0 <= c < GridSize
    ensures BlockersIn(Column(Click(s, p, rolls).session.board, c)) >= BlockersIn(Column(s.board, c))
  {
    if s.state == Playing && Mergeable(At(s.board, p)) && s.selected.Some? &&
       ClickMatches(s.board, s.selected.value, p) {
      var q := s.selected.value;
      MergeKeepsBlockers(s.board, q, p, c);
      SettleKeepsBlockers(MergeBoard(s.board, q, p), s.score, rolls, c);
    }
  }

  /** The shuffle's new values: every tile that may be merged gets a fresh
      value, blockers and empty cells stay. */
  function Reshuffle(b: Board, rolls: Rolls): (b': Board)
    requires IsBoard(b) && IsGrid(rolls)
    ensures IsBoard(b')
    ensures forall r, c :: 0 <= r < GridSize && 0 <= c < GridSize ==>
      && (b'[r][c].None? <==> b[r][c].None?)
      && (b[r][c].Some? && b[r][c].value.isBlocker ==> b'[r][c] == b[r][c])
      && (Mergeable(b[r][c]) ==> b'[r][c].Some? && IsNewValueTile(b'[r][c].value))
  {
    seq(GridSize, r requires 0 <= r < GridSize =>
      seq(GridSize, c requires 0 <= c < GridSize =>
        if Mergeable(b[r][c]) then Some(Tile(NewValues[rolls[r][c].pick], false)) else b[r][c]))
  }

  /** The shuffle button. It works only during play with shuffles left; it
      spends one shuffle, clears the selection and re-rolls the values of the
      mergeable tiles, keeping every empty cell and every blocker in place. */
  function Shuffle(s: Session, rolls: Rolls): (r: Session)
    requires IsBoard(s.board) && IsGrid(rolls)
    ensures !(s.shuffles > 0 && s.state == Playing) ==> r == s
    ensures s.shuffles > 0 && s.state == Playing ==>
      && r == s.(board := r.board, shuffles := s.shuffles - 1, selected := None)
      && IsBoard(r.board)
      && EmptyCells(r.board) == EmptyCells(s.board)
      && (forall i, c :: 0 <= i < GridSize && 0 <= c < GridSize ==>
            && (r.board[i][c].None? <==> s.board[i][c].None?)
            && (s.board[i][c].Some? && s.board[i][c].value.isBlocker ==> r.board[i][c] == s.board[i][c])
            && (Mergeable(s.board[i][c]) ==> Mergeable(r.board[i][c]) && r.board[i][c].value.value in NewValues))
  {
    if s.shuffles > 0 && s.state == Playing then
      var b := Reshuffle(s.board, rolls);
      SameEmptyCells(s.board, b);
      s.(shuffles := s.shuffles - 1, selected := None, board := b)
    else s
  }

  lemma {:induction false} SameEmptyInRow(row: seq<Cell>, row': seq<Cell>, r: int, c: int)
    requires |row| == |row'| && forall i :: 0 <= i < |row| ==> (row[i].None? <==> row'[i].None?)
    ensures EmptyInRow(row, r, c) == EmptyInRow(row', r, c)
    decreases |row|
  {
    if |row| > 0 {
      SameEmptyInRow(row[1..], row'[1..], r, c + 1);
    }
  }

  lemma {:induction false} SameEmptyInRows(rows: seq<seq<Cell>>, rows': seq<seq<Cell>>, r: int)
    requires |rows| == |rows'|
    requires forall i :: 0 <= i < |rows| ==> |rows[i]| == |rows'[i]|
    requires forall i, j :: 0 <= i < |rows| && 0 <= j < |rows[i]| ==> (rows[i][j].None? <==> rows'[i][j].None?)
    ensures EmptyInRows(rows, r) == EmptyInRows(rows', r)
    decreases |rows|
  {
    if |rows| > 0 {
      SameEmptyInRow(rows[0], rows'[0], r, 0);
      SameEmptyInRows(rows[1..], rows'[1..], r + 1);
    }
  }

  /** Two boards with the same empty cells list them alike. */
  lemma SameEmptyCells(b: Board, b': Board)
    requires IsBoard(b) && IsBoard(b')
    requires forall r, c :: 0 <= r < GridSize && 0 <= c < GridSize ==> (b[r][c].None? <==> b'[r][c].None?)
    ensures EmptyCells(b) == EmptyCells(b')
  {
    SameEmptyInRows(b, b', 0);
  }

  lemma ShufflePreservesValid(s: Session, rolls: Rolls)
    requires Valid(s) && IsGrid(rolls)
    ensures Valid(Shuffle(s, rolls))
  {
  }

  /** One second of the countdown. The clock only runs during play; the tick
      that finds one second or less left ends the game at zero. */
  function Tick(s: Session): (r: Session)
    ensures s.state != Playing ==> r == s
    ensures s.state == Playing ==> r == s.(timer := r.timer, state := r.state)
    ensures s.state == Playing ==> r.timer == Max(0, s.timer - 1)
    ensures s.state == Playing ==> (r.state == GameOver <==> r.timer == 0) && (r.state == Playing || r.state == GameOver)
  {
    if s.state != Playing then s
    else if s.timer <= 1 then s.(timer := 0, state := GameOver)
    else s.(timer := s.timer - 1)
  }

  /** `n` ticks in a row. */
  function Ticks(s: Session, n: nat): Session
    decreases n
  {
    if n == 0 then s else Ticks(Tick(s), n - 1)
  }

  /** A game with `t` seconds left lasts exactly `t` more ticks: after
      `t - 1` ticks it is still on with one second left, and the next tick
      ends it with the clock at zero, not below. */
  lemma {:induction false} GameLastsTimerTicks(s: Session)
    requires s.state == Playing && s.timer >= 1
    ensures Ticks(s, s.timer - 1) == s.(timer := 1)
    ensures Ticks(s, s.timer) == s.(timer := 0, state := GameOver)
    decreases s.timer
  {
    if s.timer > 1 {
      var s1 := Tick(s);
      assert s1 == s.(timer := s.timer - 1);
      GameLastsTimerTicks(s1);
      assert Ticks(s, s.timer - 1) == Ticks(s1, s1.timer - 1);
      assert Ticks(s, s.timer) == Ticks(s1, s1.timer);
    }
  }

  lemma TickPreservesValid(s: Session)
    requires Valid(s)
    ensures Valid(Tick(s))
  {
  }

  /** Start or restart: a fresh opening board, score zero, the initial clock
      and shuffles, nothing selected, play on. The high score is kept. */
  function Start(s: Session, o: Opening): (r: Session)
    requires ValidOpening(o)
    ensures r.state == Playing && r.score == 0 && r.timer == InitialTime
    ensures r.shuffles == InitialShuffles && r.selected == None && r.highScore == s.highScore
    ensures IsBoard(r.board)
    ensures |EmptyCells(r.board)| == GridSize * GridSize - InitialBlocks
    ensures forall i, c :: 0 <= i < GridSize && 0 <= c < GridSize && r.board[i][c].Some? ==>
      IsNewValueTile(r.board[i][c].value)
    ensures r.board[o.row][o.col] == r.board[o.row + 1][o.col] == Some(Tile(NewValues[o.pick], false))
    ensures HasLegalMove(r.board)
  {
    Session(StartBoard(o), 0, s.highScore, InitialTime, InitialShuffles, None, Playing)
  }

  lemma StartPreservesValid(s: Session, o: Opening)
    requires ValidOpening(o) && s.highScore >= 0
    ensures Valid(Start(s, o))
  {
    var b: Board := Start(s, o).board;
    forall i, c | 0 <= i < GridSize && 0 <= c < GridSize && b[i][c].Some?
      ensures WellFormedTile(b[i][c].value)
    {
      NewValueRange(b[i][c].value);
    }
  }
}
